=== FILE: README.md ===
# Flight search aggregator — a Dafny model

The system is a Spring Boot service answering `GET /flights`. It validates
the search request and sends it to every registered flight supplier in
parallel: CrazyAir and ToughJet, each behind its own adapter. It then merges
the offers into one list sorted by fare.

This project models the core of that service:

- **The search request** (`SearchRequests`). The request record and its
  bean-validation constraints: two three-letter airport codes that are not
  blank, two dates that must be present, and one to four passengers. The
  validator's answer is the set of violated constraints.
- **The adapters** (`ToughJet`, `CrazyAir`, with the shared pieces in
  `Query`, `Decimal` and `Exchange`).
  - Each adapter renders its own five query-parameter names onto its
    configured base URL.
  - The HTTP exchange is a function parameter `string -> Exchange<Record>`.
  - Each adapter classifies what comes back: a 2xx status with a body is a
    success, any other response is a bad response, and a transport
    exception is a failed call.
  - On success, each body record becomes one `FlightResponse`.
- **The fares.** CrazyAir's price passes through unchanged. ToughJet's fare
  is `(basePrice + tax) * (1 - discount / 100)`, rounded half up to whole
  cents (`Fare`).
- **The aggregation** (`Aggregator`, `FareOrder`, `FlightSearch`). The
  futures are joined in registration order. Offers are concatenated and
  failures collected. When every supplier failed, the search fails with the
  first failure. Otherwise the offers are stably sorted by fare.
  - The sort is an insertion sort. It is proved sorted, a permutation, and
    order-preserving among equal fares. It is also proved to be the only
    arrangement with those properties.
  - The join is proved independent of the order in which the supplier calls
    complete.
- **Scenarios.** The adapter, service and application tests are restated as
  lemmas over the model: `ToughJetScenarios`, `CrazyAirScenarios` and
  `SearchScenarios`.

Fares are `real`. Java's `Math.round(x * 100.0) / 100.0` becomes
`Floor(x * 100 + 1/2) / 100`. Dates and date-times are opaque ISO strings.

Two points of behaviour follow the code as written:

- Each adapter classifies the status itself after the exchange returns.
  `RestTemplate`'s default error handler, which raises a 4xx or 5xx status
  as an exception first, is a separate wrapper of the exchange
  (`Exchange.DefaultErrorHandling`). The end-to-end scenarios against real
  HTTP servers apply it. The adapter scenarios, whose `RestTemplate` is a
  mock, do not.
- With no supplier registered at all, the search raises the
  `IndexOutOfBoundsException` of `failures.get(0)` on an empty list, not a
  `FlightSearchException` (`NoSupplierRegistered`).

## Model

| member | source | states |
|---|---|---|
| SearchRequests.Violations | src/main/java/org/deblock/exercise/controller/dto/SearchRequest.java:8-16 | no violation exactly when `ValidRequest` holds (both codes present, not blank and three characters long, both dates present, 1 to 4 passengers); each of the eight annotations is reported iff its own condition fails: each `@NotBlank` iff the code is null or blank, each `@Size` iff the code is present with a length other than 3, each `@NotNull` iff its date is absent, `@Min(1)` iff passengers < 1, `@Max(4)` iff passengers > 4; a code's two violations are exactly that code's own check |
| SearchRequests.CodeViolations | src/main/java/org/deblock/exercise/controller/dto/SearchRequest.java:9-10 | one airport code has no violation exactly when it is present, not blank and three characters long; `@NotBlank` is reported iff the code is null or blank, `@Size` iff it is present with a length other than 3, and nothing else |
| SearchRequests.AcceptedRequests | src/main/java/org/deblock/exercise/controller/dto/SearchRequest.java:8-16 | LHR to AMS with both dates and 1 to 4 passengers is valid, and so is a return date before the departure date, because no constraint orders the two dates |
| SearchRequests.RejectsFivePassengers | src/test/java/org/deblock/exercise/controller/FlightControllerTest.java:79-87 | five passengers violate `@Max(4)` and nothing else |
| SearchRequests.RejectsWrongCodeLength | src/test/java/org/deblock/exercise/controller/FlightControllerTest.java:89-107 | origin "LH" violates only the origin `@Size`; destination "AMS4" only the destination `@Size` |
| SearchRequests.RejectsBlankCode | src/main/java/org/deblock/exercise/controller/dto/SearchRequest.java:9 | an origin of three spaces violates only `@NotBlank`; a missing origin violates only `@NotBlank`, since `@Size` accepts null |
| SearchRequests.RejectsMissingDate | src/test/java/org/deblock/exercise/controller/FlightControllerTest.java:119-126 | a request without a departure date violates only that date's `@NotNull` |
| Decimal.NatToString | src/main/java/org/deblock/exercise/adapter/ToughJetSupplier.java:49 | the passenger count renders as a non-empty string of decimal digits without a leading zero |
| Decimal.ParseNatToString | src/main/java/org/deblock/exercise/adapter/ToughJetSupplier.java:49 | reading the rendered passenger count back as a decimal number gives the count |
| Query.Build | src/main/java/org/deblock/exercise/adapter/CrazyAirSupplier.java:42-49 | the query holds exactly the five configured parameter names, in the order origin, destination, departure date, return date, passengers |
| Query.ParseBuild | src/main/java/org/deblock/exercise/adapter/CrazyAirSupplier.java:42-49 | with distinct parameter names, a supplier reading the five parameters back recovers the request unchanged |
| Query.RenderUrl | src/main/java/org/deblock/exercise/adapter/ToughJetSupplier.java:43-50 | the rendered URL starts with the configured base URL followed by `?`, and a server splitting the rest at `&` and `=` reads back exactly the parameters, in order, when no name or value holds a `&` and no name an `=` |
| Query.ParseJoin | src/main/java/org/deblock/exercise/adapter/ToughJetSupplier.java:45-50 | joining `name=value` pairs with `&` loses nothing: splitting the joined string gives the same parameter list |
| Query.JoinFive | src/main/java/org/deblock/exercise/adapter/CrazyAirSupplier.java:44-49 | five parameters are written as their five `name=value` pairs in order, separated by `&` |
| Query.RequestFromUrl | src/main/java/org/deblock/exercise/adapter/CrazyAirSupplier.java:42-49 | under distinct names, a supplier reading an adapter's URL finds the five parameter names in order and recovers the request unchanged |
| FlightSearch.WireNamesDistinct | src/main/java/org/deblock/exercise/adapter/ToughJetSupplier.java:45-49 | ToughJet's five parameter names are distinct, and so are CrazyAir's, so the read-back holds for both adapters |
| Query.RequestUrl | src/main/java/org/deblock/exercise/adapter/ToughJetSupplier.java:43-50 | an adapter's URL starts with its configured base URL, `?`, and the first parameter: its origin name, `=` and the origin code |
| ToughJet.ToOffer | src/main/java/org/deblock/exercise/adapter/ToughJetSupplier.java:63-77 | an offer names ToughJet as supplier and keeps carrier, airports and times; its fare is a whole number of cents within half a cent of `(base + tax) * (1 - discount/100)` |
| ToughJet.Search | src/main/java/org/deblock/exercise/adapter/ToughJetSupplier.java:42-89 | succeeds exactly on a 2xx response with a body, giving one offer per record in body order, each priced in whole cents within half a cent of its record's discounted base price plus tax; any other response is a bad response with ToughJet and its status; a transport exception is a failed call naming ToughJet and its cause |
| CrazyAir.ToOffer | src/main/java/org/deblock/exercise/adapter/CrazyAirSupplier.java:61-71 | an offer names CrazyAir as supplier, takes the quoted price as its fare, and keeps airline, airports and times |
| CrazyAir.Search | src/main/java/org/deblock/exercise/adapter/CrazyAirSupplier.java:41-81 | succeeds exactly on a 2xx response with a body, giving one offer per record in body order, each priced at its record's quoted price; any other response is a bad response with CrazyAir and its status; a transport exception is a failed call naming CrazyAir and its cause |
| Exchange.Translate | src/main/java/org/deblock/exercise/adapter/CrazyAirSupplier.java:60-80 | success iff the status is 2xx and a body is present; then one offer per record, element by element; a non-success response gives the supplier and status; a transport exception gives the supplier and its cause |
| Exchange.BadResponseBehindDefaultHandler | src/main/java/org/deblock/exercise/adapter/CrazyAirSupplier.java:52-80 | behind `RestTemplate`'s default error handler, the adapter's bad-response branch is reached exactly by a non-2xx status outside 4xx and 5xx or a 2xx without a body; a 4xx or 5xx becomes a failed call of the same supplier |
| Exchange.MapRecords | src/main/java/org/deblock/exercise/adapter/CrazyAirSupplier.java:61-71 | as many offers as records, the i-th offer translated from the i-th record |
| Domain.SupplierMessage | src/main/java/org/deblock/exercise/adapter/ToughJetSupplier.java:82-87 | a bad response reads "Failed to fetch flights from supplier S: HTTP " followed by the status; a failed call reads exactly "Error calling supplier S API" |
| Fare.RawFare | src/main/java/org/deblock/exercise/adapter/ToughJetSupplier.java:65 | the discount applies to base price and tax alike; no discount gives base + tax, a full discount gives 0, and any discount from 0 to 100 keeps the fare between 0 and base + tax |
| Fare.RoundCents | src/main/java/org/deblock/exercise/adapter/ToughJetSupplier.java:66 | the rounded fare is a whole number of cents, at most half a cent below the raw fare and less than half a cent above it |
| Fare.RoundCentsUnique | src/main/java/org/deblock/exercise/adapter/ToughJetSupplier.java:66 | the whole-cent amount within that half-cent window is the only one: rounding is determined by the window |
| Fare.RoundCentsIdempotent | src/main/java/org/deblock/exercise/adapter/ToughJetSupplier.java:66 | rounding a whole-cent amount leaves it unchanged |
| Fare.RoundHalfUp | src/main/java/org/deblock/exercise/adapter/ToughJetSupplier.java:66 | an exact half cent rounds up |
| Fare.RoundCentsMonotone | src/main/java/org/deblock/exercise/adapter/ToughJetSupplier.java:66 | rounding never reverses the order of two fares |
| Fare.WorkedFares | src/test/java/org/deblock/exercise/adapter/ToughJetSupplierTest.java:49-160 | 100 + 10 at 10% off is 99.00, 50 + 5 at 10% is 49.50, 150 + 15 at 50% is 82.50, and 320 + 45 at 20% is 292.00 |
| Fare.TaxBeforeDiscountMatters | src/main/java/org/deblock/exercise/adapter/ToughJetSupplier.java:65 | discounting the tax as well is observable: 100 + 10 at 10% differs from discounting the base price alone and adding the tax |
| ToughJetScenarios.TestQuery | src/main/java/org/deblock/exercise/adapter/ToughJetSupplier.java:43-50 | the test request's parameters are from=LHR, to=AMS, outboundDate=2025-07-20, inboundDate=2025-07-25, numberOfAdults=2, in that order |
| ToughJetScenarios.TestUrl | src/test/java/org/deblock/exercise/adapter/ToughJetSupplierTest.java:38-47 | the adapter's URL for LHR to AMS, 2025-07-20 to 2025-07-25, two adults, is exactly the URL the test stubs |
| ToughJetScenarios.StubAnswers | src/test/java/org/deblock/exercise/adapter/ToughJetSupplierTest.java:68-73 | a transport that answers only that URL is asked exactly that URL, so the adapter's result is the translation of the stubbed answer |
| ToughJetScenarios.SingleFlight | src/test/java/org/deblock/exercise/adapter/ToughJetSupplierTest.java:49-92 | one record gives exactly one offer at 99.0 with the record's carrier, airports and times |
| ToughJetScenarios.MultipleFlights | src/test/java/org/deblock/exercise/adapter/ToughJetSupplierTest.java:94-160 | two records give two offers, at 49.5 and 82.5, in body order |
| ToughJetScenarios.NoFlightsAndFailures | src/test/java/org/deblock/exercise/adapter/ToughJetSupplierTest.java:162-214 | an empty body gives no offers, a 500 without a body a bad response with status 500, and a transport exception a failed call |
| CrazyAirScenarios.TestQuery | src/main/java/org/deblock/exercise/adapter/CrazyAirSupplier.java:42-49 | the test request's parameters are origin=LHR, destination=AMS, departureDate=2025-07-01, returnDate=2025-07-10, passengerCount=2, in that order |
| CrazyAirScenarios.TestUrl | src/test/java/org/deblock/exercise/adapter/CrazyAirSupplierTest.java:36-46 | the adapter's URL for LHR to AMS, 2025-07-01 to 2025-07-10, two passengers, is exactly the URL the test stubs |
| CrazyAirScenarios.StubAnswers | src/test/java/org/deblock/exercise/adapter/CrazyAirSupplierTest.java:58-63 | a transport that answers only that URL is asked exactly that URL |
| CrazyAirScenarios.MultipleFlights | src/test/java/org/deblock/exercise/adapter/CrazyAirSupplierTest.java:84-129 | two records give two offers at their quoted prices, in body order |
| CrazyAirScenarios.NoFlightsAndFailures | src/test/java/org/deblock/exercise/adapter/CrazyAirSupplierTest.java:131-186 | an empty body gives no offers, a 500 without a body a bad response with status 500, and a transport exception a failed call |
| FareOrder.Insert | src/main/java/org/deblock/exercise/service/SearchFlightsService.java:51-53 | inserting adds exactly that offer, and the result starts with either the inserted offer or the previous head |
| FareOrder.InsertSorted | src/main/java/org/deblock/exercise/service/SearchFlightsService.java:51-53 | inserting into fare-sorted offers keeps them sorted |
| FareOrder.InsertWithFare | src/main/java/org/deblock/exercise/service/SearchFlightsService.java:51-53 | among the offers of any one fare, an inserted offer lands in front, as if prepended |
| FareOrder.SortByFareCorrect | src/main/java/org/deblock/exercise/service/SearchFlightsService.java:51-53 | `SortByFare`, the insertion sort standing for `sorted(comparingDouble(fare))`, yields non-decreasing fares, the same multiset of offers, and for every fare the same offers of that fare in the same order (stability) |
| FareOrder.SortedStableUnique | src/main/java/org/deblock/exercise/service/SearchFlightsService.java:51-53 | two fare-sorted lists that agree, fare by fare, on their offers and their order are equal |
| FareOrder.SortByFareIsUnique | src/main/java/org/deblock/exercise/service/SearchFlightsService.java:51-53 | any sorted arrangement that keeps every fare's offers in input order is the sort's result |
| FareOrder.SortPair | src/main/java/org/deblock/exercise/service/SearchFlightsService.java:51-53 | two offers are swapped exactly when the first is strictly dearer; equal fares keep their order |
| Aggregator.CollectOutcomes | src/main/java/org/deblock/exercise/service/SearchFlightsService.java:36-45 | the join loop accumulates exactly the concatenated offers of the successful suppliers and the failures, both in registration order |
| Aggregator.FailureCount | src/main/java/org/deblock/exercise/service/SearchFlightsService.java:36-49 | there are never more failures than suppliers, exactly as many iff all failed, and then the first failure is the first supplier's |
| Aggregator.Search | src/main/java/org/deblock/exercise/service/SearchFlightsService.java:25-55 | fails iff every supplier failed, with the first supplier's failure, or with no supplier at all the empty-list error; otherwise the combined offers sorted by fare, none added or lost, equal fares in combined order |
| Aggregator.OffersAppend | src/main/java/org/deblock/exercise/service/SearchFlightsService.java:39-45 | the combined offers of two runs of suppliers are the first run's followed by the second's |
| Aggregator.FailedSupplierAddsNothing | src/main/java/org/deblock/exercise/service/SearchFlightsService.java:39-45 | removing a failed supplier leaves the combined offers unchanged |
| Aggregator.OneSuccessSuffices | src/main/java/org/deblock/exercise/service/SearchFlightsService.java:47-53 | one successful supplier makes the search succeed, and every one of its offers is in the result |
| Aggregator.NoOffersIsEmptyResult | src/main/java/org/deblock/exercise/service/SearchFlightsService.java:47-53 | suppliers that all succeed with no offers give an empty list, not an error |
| Aggregator.TiesFollowRegistration | src/main/java/org/deblock/exercise/service/SearchFlightsService.java:39-53 | the result's offers of any one fare are each supplier's offers of that fare, suppliers in registration order, each in its own order |
| Aggregator.ResultIsTheStableSort | src/main/java/org/deblock/exercise/service/SearchFlightsService.java:51-53 | the result is the only sorted list that keeps every fare's combined offers in combined order |
| FlightSearch.CallSupplier | src/main/java/org/deblock/exercise/service/SearchFlightsService.java:26-29 | a client's call goes to its own adapter: the client's transport is asked that adapter's URL for the request; the call succeeds exactly when that exchange does, with the adapter's offer for each record in body order; otherwise it is that adapter's bad response with the status, or its failed call with the cause; its failure and each of its offers name that client's supplier |
| FlightSearch.JoinInOrder | src/main/java/org/deblock/exercise/service/SearchFlightsService.java:39-41 | the join yields one outcome per registered position, each the outcome the call at that position completed with |
| FlightSearch.CompletionOrderIrrelevant | src/main/java/org/deblock/exercise/service/SearchFlightsService.java:26-45 | whatever order the supplier calls complete in, joining the futures in list order yields the outcomes in registration order, so the search result is the same |
| FlightSearch.SearchFlights | src/main/java/org/deblock/exercise/service/SearchFlightsService.java:25-55 | the search over the registered clients fails iff every client's call failed, carrying the first client's failure, or the empty-list error when no client is registered; otherwise it returns the clients' combined offers sorted by fare, none added or lost, equal fares in registration order |
| FlightSearch.SearchFlightsOverTwo | src/main/java/org/deblock/exercise/service/SearchFlightsService.java:26-34 | with two registered clients, the search aggregates the first client's outcome, then the second's |
| SearchScenarios.CombinedAndSorted | src/test/java/org/deblock/exercise/service/SearchFlightsServiceTest.java:42-68 | offers at 200 from one supplier and 250, 150 from the other come out as 150, 200, 250 |
| SearchScenarios.IgnoresFailingSupplier | src/test/java/org/deblock/exercise/service/SearchFlightsServiceTest.java:70-86 | a failing second supplier is ignored and the first one's offer is the result |
| SearchScenarios.AllSuppliersFail | src/test/java/org/deblock/exercise/service/SearchFlightsServiceTest.java:88-96 | two failing suppliers make the search fail, with the first supplier's failure as the cause |
| SearchScenarios.OneOfferEach | src/main/java/org/deblock/exercise/service/SearchFlightsService.java:39-53 | two suppliers with one offer each give the cheaper first, and on a tie the first registered supplier's first |
| SearchScenarios.TieKeepsRegistrationOrder | src/main/java/org/deblock/exercise/service/SearchFlightsService.java:39-53 | two offers of the same fare come out in registration order, whichever of the two suppliers is registered first |
| SearchScenarios.MergedResultsFromAllSuppliers | src/test/java/org/deblock/exercise/ExerciseApplicationTests.java:60-140 | with each server answering only the request's URL, CrazyAir at 123.45 and ToughJet records priced 99.00 and 292.00 come out as ToughJetAir1, CrazyAir, ToughJetAir2 |
| SearchScenarios.EmptyFromAllSuppliers | src/test/java/org/deblock/exercise/ExerciseApplicationTests.java:142-166 | both suppliers answering an empty list give an empty result |
| SearchScenarios.OnlyCrazyAirResponds | src/test/java/org/deblock/exercise/ExerciseApplicationTests.java:168-210 | CrazyAir answering one offer and ToughJet none give just the CrazyAir offer |
| SearchScenarios.FailsWhenAllSuppliersDown | src/test/java/org/deblock/exercise/ExerciseApplicationTests.java:212-230 | both servers answering 500 behind the default error handler make both calls fail, and the search fails with CrazyAir's failed call, "Error calling supplier CrazyAir API", as the cause |

## Left out

- The HTTP transport, JSON decoding and `RestTemplate` are a function parameter of each adapter. `RestTemplate`'s default error handler is modelled only as the wrapper `Exchange.DefaultErrorHandling`, with the exception's class name standing for its message.
- Query.RenderUrl: percent-encoding of query values is not modelled, so the read-back is stated only for parameters without `&`, and names without `=`. The source does not read back such values either: `toUriString()` percent-encodes `&` in a value, and `RestTemplate.exchange(String, …)` encodes the resulting string again, so an origin "L&H" is sent as `L%2526H` and read as "L%26H". The same holds for `Query.RequestFromUrl`. Airport codes and ISO dates need no encoding. The configured base URL is taken to be a valid HTTP URL without a query string or fragment. Otherwise `fromHttpUrl` would append the parameters with `&`, or throw `IllegalArgumentException` outside the adapters' `try`.
- Logging is not modelled.
- A status code that `HttpStatus` does not register makes `getStatusCode()` throw an `IllegalArgumentException` inside the adapters' `try`, but its `RestClientException` handler does not catch it. In the model it is a bad response like any other non-2xx status. Either way, that supplier's call fails.
- Concurrency is not modelled beyond the join. `@Async`, the thread pools and `CompletableFuture.supplyAsync` become a completion order over the supplier calls. `CompletableFuture.join` becomes a lookup of the call's outcome.
- The exception chain is not kept. The wrapping `RuntimeException("Failed supplier: …")` and the `CompletionException` around it are dropped, and the search error carries the supplier's own failure directly.
- The web layer is not modelled: `FlightController`, request binding and `GlobalExceptionHandler`'s mapping to HTTP statuses. Only the validation constraints of the request record are.
- Fares are exact reals, not IEEE doubles. Representation error, such as a raw fare of x.xx5 that is a double just below the half cent, is not modelled. Neither is `Math.round` saturating at the `long` range.
- Dates and date-times are opaque ISO strings. Parsing them, rejecting invalid dates such as 2025-07-55, and ToughJet's UTC offset round trip are not modelled; the round trip leaves the value as it was anyway.
- Null fields inside supplier records and null elements in a response body are not modelled. Every record field is present.
- `@Size` counts Dafny characters, not UTF-16 code units. The two differ only for characters outside the Basic Multilingual Plane.
- Domain.SupplierMessage: the status is rendered by its numeric code only, not with Spring's reason phrase ("500 INTERNAL_SERVER_ERROR"), so the contract states the message prefix and not the exact text.
- Spring's choice of registration order for the two supplier beans is not modelled. The model takes the client list as given.

=== FILE: aggregator.dfy ===
/** `SearchFlightsService.search`: every registered supplier is called, the
    outcomes are joined in registration order, failures are dropped unless
    every supplier failed, and the offers are sorted by fare. */
module Aggregator {
  import opened Wrappers
  import opened Domain
  import opened FareOrder

  /** What one supplier's future yields: its offers, or the exception. */
  type Outcome = Result<seq<FlightResponse>, SupplierError>

  /** What a supplier adds to the combined list; a failure adds nothing. */
  function Contribution(o: Outcome): seq<FlightResponse> {
    if o.Ok? then o.value else []
  }

  /** The combined list of the join loop: the successful suppliers' offers,
      concatenated in registration order. */
  function Offers(os: seq<Outcome>): seq<FlightResponse> {
    if |os| == 0 then [] else Offers(os[..|os| - 1]) + Contribution(os[|os| - 1])
  }

  /** The failure list of the join loop, in registration order. */
  function Failures(os: seq<Outcome>): seq<SupplierError> {
    if |os| == 0 then []
    else Failures(os[..|os| - 1]) + (if os[|os| - 1].Err? then [os[|os| - 1].error] else [])
  }

  predicate AllFailed(os: seq<Outcome>) {
    forall i :: 0 <= i < |os| ==> os[i].Err?
  }

  /** There are as many failures as suppliers exactly when all of them
      failed, and then the first failure is the first supplier's. */
  lemma {:induction false} FailureCount(os: seq<Outcome>)
    ensures |Failures(os)| <= |os|
    ensures |Failures(os)| == |os| <==> AllFailed(os)
    ensures AllFailed(os) && |os| > 0 ==> Failures(os)[0] == os[0].error
  {
    if |os| > 0 {
      var init := os[..|os| - 1];
      FailureCount(init);
      assert forall i :: 0 <= i < |init| ==> init[i] == os[i];
      if AllFailed(os) && |init| > 0 {
        assert AllFailed(init);
      }
    }
  }

  /** The join loop of lines 36-45: each future in list order either adds
      its offers to the combined list or its exception to the failures. */
  method CollectOutcomes(os: seq<Outcome>) returns (allResults: seq<FlightResponse>, failures: seq<SupplierError>)
    ensures allResults == Offers(os)
    ensures failures == Failures(os)
  {
    allResults := [];
    failures := [];
    for i := 0 to |os|
      invariant allResults == Offers(os[..i])
      invariant failures == Failures(os[..i])
    {
      assert os[..i + 1][..i] == os[..i];
      match os[i]
      case Ok(offers) => allResults := allResults + offers;
      case Err(e) => failures := failures + [e];
    }
    assert os[..|os|] == os;
  }

  /** The aggregate search over the suppliers' outcomes in registration
      order. It fails exactly when every supplier failed, with the first
      failure as the cause; otherwise it returns the combined offers, sorted
      by fare, nothing added or lost, ties in combined order. */
  function Search(os: seq<Outcome>): (r: Result<seq<FlightResponse>, SearchError>)
    ensures r.Err? <==> AllFailed(os)
    ensures r.Err? && |os| > 0 ==> r.error == AllSuppliersFailed(os[0].error)
    ensures |os| == 0 ==> r == Err(NoSupplierRegistered)
    ensures r.Ok? ==> SortedByFare(r.value)
    ensures r.Ok? ==> multiset(r.value) == multiset(Offers(os))
    ensures r.Ok? ==> forall fare :: WithFare(r.value, fare) == WithFare(Offers(os), fare)
  {
    var failures := Failures(os);
    FailureCount(os);
    if |failures| == |os| then
      if |failures| == 0 then Err(NoSupplierRegistered) else Err(AllSuppliersFailed(failures[0]))
    else
      SortByFareCorrect(Offers(os));
      Ok(SortByFare(Offers(os)))
  }

  /** When some supplier answers, the result is the sorted combined list. */
  lemma SearchSucceeds(os: seq<Outcome>)
    requires !AllFailed(os)
    ensures Search(os) == Ok(SortByFare(Offers(os)))
  {
    FailureCount(os);
  }

  /** Combining two runs of suppliers is combining their offers. */
  lemma {:induction false} OffersAppend(a: seq<Outcome>, b: seq<Outcome>)
    ensures Offers(a + b) == Offers(a) + Offers(b)
    decreases |b|
  {
    if |b| == 0 {
      assert a + b == a;
    } else {
      var b' := b[..|b| - 1];
      assert (a + b)[..|a + b| - 1] == a + b';
      OffersAppend(a, b');
    }
  }

  /** A single supplier's offers are its contribution. */
  lemma OffersSingle(o: Outcome)
    ensures Offers([o]) == Contribution(o)
  {
    assert [o][..0] == [];
  }

  /** The suppliers before, at and after one position. */
  lemma OffersAround(pre: seq<Outcome>, o: Outcome, post: seq<Outcome>)
    ensures Offers(pre + [o] + post) == Offers(pre) + Contribution(o) + Offers(post)
  {
    OffersAppend(pre + [o], post);
    OffersAppend(pre, [o]);
    OffersSingle(o);
  }

  /** A sequence is what comes before, at and after one position. */
  lemma Around<T>(s: seq<T>, i: nat)
    requires i < |s|
    ensures s == s[..i] + [s[i]] + s[i + 1..]
  {
  }

  /** A failed supplier contributes no offers: the combined list is the
      same as if it had not been registered. */
  lemma FailedSupplierAddsNothing(os: seq<Outcome>, i: nat)
    requires i < |os| && os[i].Err?
    ensures Offers(os) == Offers(os[..i] + os[i + 1..])
  {
    var pre, post := os[..i], os[i + 1..];
    calc {
      Offers(os);
      { Around(os, i); }
      Offers(pre + [os[i]] + post);
      { OffersAround(pre, os[i], post); }
      Offers(pre) + Contribution(os[i]) + Offers(post);
      { assert Contribution(os[i]) == []; }
      Offers(pre) + Offers(post);
      { OffersAppend(pre, post); }
      Offers(pre + post);
    }
  }

  /** One working supplier is enough for a result, even if every other
      supplier failed. */
  lemma OneSuccessSuffices(os: seq<Outcome>, i: nat)
    requires i < |os| && os[i].Ok?
    ensures Search(os).Ok?
    ensures forall x :: x in os[i].value ==> x in Search(os).value
  {
    assert os == os[..i] + [os[i]] + os[i + 1..];
    OffersAround(os[..i], os[i], os[i + 1..]);
    forall x | x in os[i].value ensures x in Search(os).value {
      assert x in multiset(Offers(os));
    }
  }

  /** Suppliers that all answer with no offers give an empty result, not
      an error. */
  lemma {:induction false} NoOffersIsEmptyResult(os: seq<Outcome>)
    requires |os| > 0
    requires forall i :: 0 <= i < |os| ==> os[i] == Ok([])
    ensures Search(os) == Ok([])
  {
    NoOffers(os);
  }

  lemma {:induction false} NoOffers(os: seq<Outcome>)
    requires forall i :: 0 <= i < |os| ==> os[i] == Ok([])
    ensures Offers(os) == []
  {
    if |os| > 0 {
      NoOffers(os[..|os| - 1]);
    }
  }

  /** The offers of one fare from every supplier: each supplier's in its
      own order, suppliers in registration order. */
  function OffersAtFare(os: seq<Outcome>, fare: real): seq<FlightResponse> {
    if |os| == 0 then [] else OffersAtFare(os[..|os| - 1], fare) + WithFare(Contribution(os[|os| - 1]), fare)
  }

  /** Ties follow registration order: among offers of equal fare, an earlier
      registered supplier's come first, and each supplier's keep its order. */
  lemma TiesFollowRegistration(os: seq<Outcome>, fare: real)
    requires Search(os).Ok?
    ensures WithFare(Search(os).value, fare) == OffersAtFare(os, fare)
  {
    OffersAtFareSplit(os, fare);
  }

  lemma {:induction false} OffersAtFareSplit(os: seq<Outcome>, fare: real)
    ensures WithFare(Offers(os), fare) == OffersAtFare(os, fare)
  {
    if |os| > 0 {
      OffersAtFareSplit(os[..|os| - 1], fare);
      WithFareAppend(Offers(os[..|os| - 1]), Contribution(os[|os| - 1]), fare);
    }
  }

  /** The result is the only sorted arrangement of the combined offers that
      keeps the combined order among equal fares. */
  lemma ResultIsTheStableSort(os: seq<Outcome>, t: seq<FlightResponse>)
    requires Search(os).Ok?
    requires SortedByFare(t)
    requires forall fare :: WithFare(t, fare) == WithFare(Offers(os), fare)
    ensures t == Search(os).value
  {
    SortByFareIsUnique(Offers(os), t);
  }
}

=== FILE: crazyair.dfy ===
/** The CrazyAir adapter: `origin`/`destination`/`departureDate`/
    `returnDate`/`passengerCount` on the wire, and the price passed through
    as the fare. */
module CrazyAir {
  import opened Wrappers
  import opened Domain
  import opened SearchRequests
  import opened Query
  import opened Exchange

  /** One record of CrazyAir's response body. */
  datatype CrazyAirResponse = CrazyAirResponse(
    airline: string,
    price: real,
    cabinClass: string,
    departureAirportCode: string,
    destinationAirportCode: string,
    departureDate: LocalDateTime,
    arrivalDate: LocalDateTime)

  const SupplierName := "CrazyAir"

  const WireNames := ParamNames("origin", "destination", "departureDate", "returnDate", "passengerCount")

  /** One record as an offer: the price is the fare as it stands, the
      cabin class is dropped, everything else is carried over. */
  function ToOffer(raw: CrazyAirResponse): (offer: FlightResponse)
    ensures offer.supplier == SupplierName
    ensures offer.fare == raw.price
    ensures (offer.airline, offer.departureAirportCode, offer.destinationAirportCode)
         == (raw.airline, raw.departureAirportCode, raw.destinationAirportCode)
    ensures (offer.departureDate, offer.arrivalDate) == (raw.departureDate, raw.arrivalDate)
  {
    FlightResponse(
      raw.airline,
      SupplierName,
      raw.price,
      raw.departureAirportCode,
      raw.destinationAirportCode,
      raw.departureDate,
      raw.arrivalDate)
  }

  /** `CrazyAirSupplier.search`: one GET of the request's URL through
      `http`, classified and translated record by record. */
  function Search(apiUrl: string, req: SearchRequest, http: string -> Exchange<CrazyAirResponse>)
    : (r: Result<seq<FlightResponse>, SupplierError>)
    requires ValidRequest(req)
    ensures var ex := http(RequestUrl(apiUrl, WireNames, req));
      && (r.Ok? <==> Succeeded(ex))
      && (r.Ok? ==> |r.value| == |ex.body.value|
                    && forall i :: 0 <= i < |r.value| ==> r.value[i] == ToOffer(ex.body.value[i]))
      && (r.Ok? ==> forall i :: 0 <= i < |r.value| ==> r.value[i].fare == ex.body.value[i].price)
      && (r.Err? ==> r.error.supplier == "CrazyAir")
      && (ex.Response? && !Succeeded(ex) ==> r.error == BadResponse("CrazyAir", ex.status))
      && (ex.TransportError? ==> r.error == TransportFailure("CrazyAir", ex.cause))
  {
    Translate(SupplierName, http(RequestUrl(apiUrl, WireNames, req)), ToOffer)
  }
}

/** The CrazyAir adapter tests, with the stubbed transport answering only
    the URL the test expects. */
module CrazyAirScenarios {
  import opened Wrappers
  import opened Decimal
  import opened Domain
  import opened SearchRequests
  import opened Query
  import opened Exchange
  import opened CrazyAir

  const ApiUrl := "http://mock-crazyair.com/flights"

  /** The URL of the tests, in one piece per parameter. */
  const ExpectedUrl := "http://mock-crazyair.com/flights" + "?" + ("origin=LHR" + "&" + ("destination=AMS" + "&"
    + ("departureDate=2025-07-01" + "&" + ("returnDate=2025-07-10" + "&" + "passengerCount=2"))))

  /** The request of the tests: two passengers, 1 to 10 July 2025. */
  const Request := Example(2).(departureDate := Some(LocalDate("2025-07-01")),
                               returnDate := Some(LocalDate("2025-07-10")))

  lemma TestQuery()
    ensures ValidRequest(Request)
    ensures Build(WireNames, Request)
         == [QueryParam("origin", "LHR"), QueryParam("destination", "AMS"),
             QueryParam("departureDate", "2025-07-01"), QueryParam("returnDate", "2025-07-10"),
             QueryParam("passengerCount", "2")]
  {
    AcceptedRequests(2);
    assert NatToString(2) == "2";
  }

  /** Two passengers from LHR to AMS give the URL the tests stub. */
  lemma TestUrl()
    ensures ValidRequest(Request)
    ensures RequestUrl(ApiUrl, WireNames, Request) == ExpectedUrl
  {
    TestQuery();
    var q := Build(WireNames, Request);
    JoinFive(q);
    assert Pair(q[0]) == "origin=LHR" && Pair(q[1]) == "destination=AMS";
    assert Pair(q[2]) == "departureDate=2025-07-01" && Pair(q[3]) == "returnDate=2025-07-10";
    assert Pair(q[4]) == "passengerCount=2";
    assert RequestUrl(ApiUrl, WireNames, Request) == ApiUrl + "?" + JoinParams(q);
  }

  lemma StubAnswers(ex: Exchange<CrazyAirResponse>)
    ensures ValidRequest(Request)
    ensures Search(ApiUrl, Request, Stub(ExpectedUrl, ex)) == Translate(SupplierName, ex, ToOffer)
  {
    TestUrl();
  }

  const Economy := CrazyAirResponse("CrazyAir1", 100.0, "E", "LHR", "AMS",
                                    LocalDateTime("2025-07-01T10:00"), LocalDateTime("2025-07-01T12:00"))
  const Business := CrazyAirResponse("CrazyAir2", 150.0, "B", "LHR", "AMS",
                                     LocalDateTime("2025-07-01T14:00"), LocalDateTime("2025-07-01T16:00"))

  const EconomyOffer := FlightResponse("CrazyAir1", "CrazyAir", 100.0, "LHR", "AMS",
                                      LocalDateTime("2025-07-01T10:00"), LocalDateTime("2025-07-01T12:00"))
  const BusinessOffer := FlightResponse("CrazyAir2", "CrazyAir", 150.0, "LHR", "AMS",
                                       LocalDateTime("2025-07-01T14:00"), LocalDateTime("2025-07-01T16:00"))

  /** Two records give two offers in body order, priced as quoted. */
  lemma MultipleFlights()
    ensures ValidRequest(Request)
    ensures Search(ApiUrl, Request, Stub(ExpectedUrl, Response(200, Some([Economy, Business]))))
         == Ok([EconomyOffer, BusinessOffer])
  {
    StubAnswers(Response(200, Some([Economy, Business])));
    TwoRecords();
  }

  lemma TwoRecords()
    ensures Translate(SupplierName, Response(200, Some([Economy, Business])), ToOffer) == Ok([EconomyOffer, BusinessOffer])
  {
    assert ToOffer(Economy) == EconomyOffer;
    assert ToOffer(Business) == BusinessOffer;
    assert MapRecords([Economy, Business], ToOffer) == [EconomyOffer, BusinessOffer];
  }

  /** An empty body is an empty result, a 500 without a body a bad
      response, and a transport exception a failed call. */
  lemma NoFlightsAndFailures()
    ensures ValidRequest(Request)
    ensures Search(ApiUrl, Request, Stub(ExpectedUrl, Response(200, Some([])))) == Ok([])
    ensures Search(ApiUrl, Request, Stub(ExpectedUrl, Response(500, None)))
         == Err(BadResponse("CrazyAir", 500))
    ensures Search(ApiUrl, Request, Stub(ExpectedUrl, TransportError("Connection refused")))
         == Err(TransportFailure("CrazyAir", "Connection refused"))
  {
    TestUrl();
  }
}

=== FILE: decimal.dfy ===
/** Decimal text of non-negative integers, as `String.valueOf(int)` renders
    them, together with the reading back that a query string's consumer does. */
module Decimal {

  predicate IsDigit(c: char) {
    '0' <= c <= '9'
  }

  predicate AllDigits(s: string) {
    forall i :: 0 <= i < |s| ==> IsDigit(s[i])
  }

  function DigitChar(d: nat): (c: char)
    requires d < 10
  {
    (d + '0' as int) as char
  }

  function DigitValue(c: char): (d: nat)
    requires IsDigit(c)
  {
    c as int - '0' as int
  }

  /** The shortest decimal numeral of `n`: only digits, no leading zero. */
  function NatToString(n: nat): (s: string)
    ensures |s| > 0
    ensures AllDigits(s)
    ensures |s| > 1 ==> s[0] != '0'
    decreases n
  {
    if n < 10 then [DigitChar(n)] else NatToString(n / 10) + [DigitChar(n % 10)]
  }

  /** The value of a numeral, most significant digit first. */
  function ParseNat(s: string): (n: nat)
    requires AllDigits(s)
  {
    if |s| == 0 then 0 else 10 * ParseNat(s[..|s| - 1]) + DigitValue(s[|s| - 1])
  }

  /** Rendering a number and reading it back gives the number. */
  lemma {:induction false} ParseNatToString(n: nat)
    ensures ParseNat(NatToString(n)) == n
  {
    var s := NatToString(n);
    if n >= 10 {
      ParseNatToString(n / 10);
      assert s[..|s| - 1] == NatToString(n / 10);
    }
  }
}

=== FILE: domain.dfy ===
/** The records the suppliers and the aggregator exchange: the normalised
    offer (`FlightResponse`), the opaque date values, and the two exceptions
    of the system as error values. */
module Domain {
  import opened Decimal

  /** A `java.time.LocalDate`, kept opaque: only its ISO-8601 text
      (`toString()`, e.g. "2025-07-20") is ever observed. */
  datatype LocalDate = LocalDate(iso: string)

  /** A `java.time.LocalDateTime`, kept opaque in the same way. */
  datatype LocalDateTime = LocalDateTime(iso: string)

  /** The normalised offer every supplier produces. */
  datatype FlightResponse = FlightResponse(
    airline: string,
    supplier: string,
    fare: real,
    departureAirportCode: string,
    destinationAirportCode: string,
    departureDate: LocalDateTime,
    arrivalDate: LocalDateTime)

  /** An HTTP status code as a three-digit number. `ResponseEntity.getStatusCode()`
      returns the `HttpStatus` enum, which has registered codes only. */
  type StatusCode = s: int | 100 <= s <= 999 witness 200

  /** `FlightSupplierException`, by the branch of the adapter that threw it. */
  datatype SupplierError =
    | BadResponse(supplier: string, status: StatusCode)
    | TransportFailure(supplier: string, cause: string)

  /** Why the aggregate search failed: `FlightSearchException` when every
      supplier failed, carrying the first failure; or, with no supplier
      registered at all, the `IndexOutOfBoundsException` of asking the empty
      failure list for its first element. */
  datatype SearchError =
    | AllSuppliersFailed(firstCause: SupplierError)
    | NoSupplierRegistered

  const FetchFailedPrefix := "Failed to fetch flights from supplier "
  const CallFailedPrefix := "Error calling supplier "

  /** The exception message. The status is rendered by its numeric code. */
  function SupplierMessage(e: SupplierError): (m: string)
    ensures e.BadResponse? ==> FetchFailedPrefix + e.supplier + ": HTTP " <= m
    ensures e.BadResponse? ==> |m| > |FetchFailedPrefix + e.supplier + ": HTTP "|
    ensures e.TransportFailure? ==> m == CallFailedPrefix + e.supplier + " API"
  {
    match e
    case BadResponse(supplier, status) =>
      FetchFailedPrefix + supplier + ": HTTP " + NatToString(status)
    case TransportFailure(supplier, _) =>
      CallFailedPrefix + supplier + " API"
  }
}

=== FILE: exchange.dfy ===
/** The outcome of one `RestTemplate.exchange` call, and the classification
    both adapters apply to it: a 2xx status with a body is a success whose
    records are translated one by one; any other response is a bad
    response; a transport exception is a failed call. */
module Exchange {
  import opened Wrappers
  import opened Domain

  /** A response with its status and possibly absent body, or a
      `RestClientException` raised before any response was read. */
  datatype Exchange<T> =
    | Response(status: StatusCode, body: Option<seq<T>>)
    | TransportError(cause: string)

  /** `HttpStatus.is2xxSuccessful`: the status is in the 2xx series, so its
      hundreds digit is 2. */
  predicate Is2xx(status: StatusCode) {
    status / 100 == 2
  }

  predicate Succeeded<T>(ex: Exchange<T>) {
    ex.Response? && Is2xx(ex.status) && ex.body.Some?
  }

  /** The record-by-record translation of a body, keeping its order. */
  function MapRecords<T>(body: seq<T>, toOffer: T -> FlightResponse): (offers: seq<FlightResponse>)
    ensures |offers| == |body|
    ensures forall i :: 0 <= i < |body| ==> offers[i] == toOffer(body[i])
  {
    if |body| == 0 then [] else [toOffer(body[0])] + MapRecords(body[1..], toOffer)
  }

  /** What an adapter makes of an exchange: success exactly on a 2xx status
      with a body, one offer per record in body order; otherwise an error
      naming the supplier and the status, or the transport cause. */
  function Translate<T>(supplier: string, ex: Exchange<T>, toOffer: T -> FlightResponse)
    : (r: Result<seq<FlightResponse>, SupplierError>)
    ensures r.Ok? <==> Succeeded(ex)
    ensures r.Ok? ==> |r.value| == |ex.body.value|
    ensures r.Ok? ==> forall i :: 0 <= i < |r.value| ==> r.value[i] == toOffer(ex.body.value[i])
    ensures ex.Response? && !Succeeded(ex) ==> r == Err(BadResponse(supplier, ex.status))
    ensures ex.TransportError? ==> r == Err(TransportFailure(supplier, ex.cause))
  {
    match ex
    case TransportError(cause) => Err(TransportFailure(supplier, cause))
    case Response(status, body) =>
      if Is2xx(status) && body.Some? then Ok(MapRecords(body.value, toOffer))
      else Err(BadResponse(supplier, status))
  }

  /** `RestTemplate`'s default error handler: a 4xx or 5xx response is
      raised as an `HttpClientErrorException` or `HttpServerErrorException`,
      both `RestClientException`s, before the adapter reads the status. */
  function DefaultErrorHandling<T>(ex: Exchange<T>): Exchange<T> {
    if ex.Response? && ex.status / 100 == 4 then TransportError("HttpClientErrorException")
    else if ex.Response? && ex.status / 100 == 5 then TransportError("HttpServerErrorException")
    else ex
  }

  /** Behind the default error handler, the adapter's own bad-response
      branch is reached only by a non-2xx status outside 4xx and 5xx and by a
      2xx without a body; a 4xx or 5xx surfaces as a failed call instead. */
  lemma BadResponseBehindDefaultHandler<T>(supplier: string, ex: Exchange<T>, toOffer: T -> FlightResponse)
    ensures var r := Translate(supplier, DefaultErrorHandling(ex), toOffer);
      && (r.Err? && r.error.BadResponse? <==> ex.Response? && !Succeeded(ex) && !(400 <= ex.status < 600))
      && (ex.Response? && 400 <= ex.status < 600 ==> r.Err? && r.error.TransportFailure? && r.error.supplier == supplier)
  {
  }

  /** The transport of the adapter tests: it answers `ex` at `url` and
      fails at any other URL. */
  function Stub<T>(url: string, ex: Exchange<T>): string -> Exchange<T> {
    (u: string) => if u == url then ex else TransportError("unexpected URL")
  }
}

=== FILE: fare.dfy ===
/** ToughJet's pricing: the raw fare from base price, tax and percentage
    discount, and the half-up rounding to cents of `Math.round(x * 100) / 100`.
    Amounts are exact reals rather than IEEE doubles. */
module Fare {

  /** Tax is added before the discount, so the discount applies to the tax
      too; no discount leaves base plus tax, a full discount leaves nothing,
      and a discount within 0..100 keeps the fare within 0..base plus tax. */
  function RawFare(basePrice: real, tax: real, discount: real): (f: real)
    ensures f == basePrice * (1.0 - discount / 100.0) + tax * (1.0 - discount / 100.0)
    ensures discount == 0.0 ==> f == basePrice + tax
    ensures discount == 100.0 ==> f == 0.0
    ensures 0.0 <= basePrice && 0.0 <= tax && 0.0 <= discount <= 100.0 ==> 0.0 <= f <= basePrice + tax
  {
    var total := basePrice + tax;
    var kept := 1.0 - discount / 100.0;
    assert 0.0 <= total && 0.0 <= kept <= 1.0 ==> 0.0 <= total * kept <= total by {
      if 0.0 <= total && 0.0 <= kept <= 1.0 {
        ScaleDown(total, kept);
      }
    }
    total * kept
  }

  lemma ScaleDown(amount: real, factor: real)
    requires 0.0 <= amount && 0.0 <= factor <= 1.0
    ensures 0.0 <= amount * factor <= amount
  {
    assert amount * (1.0 - factor) >= 0.0;
  }

  /** A whole number of cents. */
  predicate IsCents(x: real) {
    (x * 100.0).Floor as real == x * 100.0
  }

  /** `Math.round(x * 100.0) / 100.0`, where `Math.round(y)` is the floor of
      `y + 1/2`: the cent value nearest to `x`, a half cent rounding up. */
  function RoundCents(x: real): (r: real)
    ensures IsCents(r)
    ensures r - 0.005 <= x < r + 0.005
  {
    (x * 100.0 + 0.5).Floor as real / 100.0
  }

  /** The two properties of `RoundCents` pin it down: the only cent value
      within a half cent below and less than a half cent above `x`. */
  lemma RoundCentsUnique(x: real, c: real)
    requires IsCents(c)
    requires c - 0.005 <= x < c + 0.005
    ensures RoundCents(x) == c
  {
    var k := (c * 100.0).Floor;
    var y := x * 100.0 + 0.5;
    assert k as real <= y < k as real + 1.0;
    assert y.Floor == k;
  }

  /** An amount already in cents is left as it is. */
  lemma RoundCentsIdempotent(x: real)
    requires IsCents(x)
    ensures RoundCents(x) == x
  {
    RoundCentsUnique(x, x);
  }

  /** Exactly half a cent above `k` cents rounds up to `k + 1` cents, for
      negative `k` as well (towards positive infinity, as `Math.round`). */
  lemma RoundHalfUp(k: int)
    ensures RoundCents((k as real + 0.5) / 100.0) == (k + 1) as real / 100.0
  {
    var c := (k + 1) as real / 100.0;
    assert c * 100.0 == (k + 1) as real;
    RoundCentsUnique((k as real + 0.5) / 100.0, c);
  }

  /** Rounding never reverses the order of two amounts. */
  lemma RoundCentsMonotone(x: real, y: real)
    requires x <= y
    ensures RoundCents(x) <= RoundCents(y)
  {
    assert (x * 100.0 + 0.5).Floor <= (y * 100.0 + 0.5).Floor;
  }

  /** The fare of one ToughJet record. */
  function ToughJetFare(basePrice: real, tax: real, discount: real): real {
    RoundCents(RawFare(basePrice, tax, discount))
  }

  /** The fares of the ToughJet tests: 100/10/10 is 99.00, 50/5/10 is 49.50,
      150/15/50 is 82.50, and 320/45/20 is 292.00. */
  lemma WorkedFares()
    ensures ToughJetFare(100.0, 10.0, 10.0) == 99.0
    ensures ToughJetFare(50.0, 5.0, 10.0) == 49.5
    ensures ToughJetFare(150.0, 15.0, 50.0) == 82.5
    ensures ToughJetFare(320.0, 45.0, 20.0) == 292.0
  {
    RoundCentsUnique(RawFare(100.0, 10.0, 10.0), 99.0);
    RoundCentsUnique(RawFare(50.0, 5.0, 10.0), 49.5);
    RoundCentsUnique(RawFare(150.0, 15.0, 50.0), 82.5);
    RoundCentsUnique(RawFare(320.0, 45.0, 20.0), 292.0);
  }

  /** Discounting after the tax is what the tests rely on: discounting the
      base price alone and adding the tax afterwards prices 100/10/10 at
      100.00, not 99.00. */
  lemma TaxBeforeDiscountMatters()
    ensures ToughJetFare(100.0, 10.0, 10.0) != RoundCents(RawFare(100.0, 0.0, 10.0) + 10.0)
  {
    WorkedFares();
    RoundCentsUnique(RawFare(100.0, 0.0, 10.0) + 10.0, 100.0);
  }
}

=== FILE: fare_order.dfy ===
/** The stable ascending sort by fare that the aggregator applies
    (`sorted(Comparator.comparingDouble(FlightResponse::fare))` on a
    sequential stream), as an insertion sort. */
module FareOrder {
  import opened Domain

  predicate SortedByFare(s: seq<FlightResponse>) {
    forall i, j :: 0 <= i < j < |s| ==> s[i].fare <= s[j].fare
  }

  /** The offers priced at exactly `fare`, in their order in `s`. */
  function WithFare(s: seq<FlightResponse>, fare: real): (t: seq<FlightResponse>)
    ensures |t| <= |s|
  {
    if |s| == 0 then []
    else (if s[0].fare == fare then [s[0]] else []) + WithFare(s[1..], fare)
  }

  /** Selecting one fare distributes over concatenation. */
  lemma {:induction false} WithFareAppend(a: seq<FlightResponse>, b: seq<FlightResponse>, fare: real)
    ensures WithFare(a + b, fare) == WithFare(a, fare) + WithFare(b, fare)
  {
    if |a| == 0 {
      assert a + b == b;
    } else {
      var head := if a[0].fare == fare then [a[0]] else [];
      assert (a + b)[0] == a[0];
      assert (a + b)[1..] == a[1..] + b;
      assert WithFare(a + b, fare) == head + WithFare(a[1..] + b, fare);
      WithFareAppend(a[1..], b, fare);
      assert WithFare(a, fare) == head + WithFare(a[1..], fare);
    }
  }

  /** An offer is among those of its own fare. */
  lemma {:induction false} InWithFare(s: seq<FlightResponse>, x: FlightResponse)
    requires x in s
    ensures x in WithFare(s, x.fare)
  {
    if s[0] != x {
      InWithFare(s[1..], x);
    }
  }

  /** Every offer of `WithFare(s, fare)` is priced at `fare` and is in `s`. */
  lemma {:induction false} WithFareMembers(s: seq<FlightResponse>, fare: real, x: FlightResponse)
    requires x in WithFare(s, fare)
    ensures x.fare == fare && x in s
  {
    if s[0] != x || s[0].fare != fare {
      WithFareMembers(s[1..], fare, x);
    }
  }

  /** Places `x` before the first offer not cheaper than it. */
  function Insert(x: FlightResponse, s: seq<FlightResponse>): (r: seq<FlightResponse>)
    ensures multiset(r) == multiset(s) + multiset{x}
    ensures |r| == |s| + 1 && (r[0] == x || (|s| > 0 && r[0] == s[0]))
  {
    if |s| == 0 || x.fare <= s[0].fare then [x] + s
    else
      MultisetCons(s);
      var t := Insert(x, s[1..]);
      [s[0]] + t
  }

  /** Insertion into sorted offers keeps them sorted. */
  lemma {:induction false} InsertSorted(x: FlightResponse, s: seq<FlightResponse>)
    requires SortedByFare(s)
    ensures SortedByFare(Insert(x, s))
  {
    if |s| > 0 && x.fare > s[0].fare {
      var t := Insert(x, s[1..]);
      InsertSorted(x, s[1..]);
      assert forall j :: 0 <= j < |t| ==> s[0].fare <= t[0].fare <= t[j].fare;
    }
  }

  /** Insertion puts `x` ahead of every offer of its own fare in `s`. */
  lemma {:induction false} InsertWithFare(x: FlightResponse, s: seq<FlightResponse>, fare: real)
    ensures WithFare(Insert(x, s), fare) == WithFare([x] + s, fare)
  {
    if |s| == 0 || x.fare <= s[0].fare {
    } else {
      var r := Insert(x, s);
      assert r[1..] == Insert(x, s[1..]);
      InsertWithFare(x, s[1..], fare);
      assert ([x] + s)[1..] == s;
      assert ([x] + s[1..])[1..] == s[1..];
    }
  }

  lemma MultisetCons(s: seq<FlightResponse>)
    requires |s| > 0
    ensures multiset(s) == multiset{s[0]} + multiset(s[1..])
  {
    assert s == [s[0]] + s[1..];
  }

  /** The insertion sort: each offer, from the last to the first, is
      inserted into the sorted remainder. */
  function SortByFare(s: seq<FlightResponse>): seq<FlightResponse> {
    if |s| == 0 then [] else Insert(s[0], SortByFare(s[1..]))
  }

  /** The sorted offers: non-decreasing fares, the same offers, and among
      equal fares the order of `s`. */
  lemma {:induction false} SortByFareCorrect(s: seq<FlightResponse>)
    ensures SortedByFare(SortByFare(s))
    ensures multiset(SortByFare(s)) == multiset(s)
    ensures forall fare :: WithFare(SortByFare(s), fare) == WithFare(s, fare)
  {
    if |s| > 0 {
      var rest := SortByFare(s[1..]);
      SortByFareCorrect(s[1..]);
      InsertSorted(s[0], rest);
      MultisetCons(s);
      forall fare ensures WithFare(Insert(s[0], rest), fare) == WithFare(s, fare) {
        InsertWithFare(s[0], rest, fare);
        assert ([s[0]] + rest)[1..] == rest;
      }
    }
  }

  /** One step of the sort: the head is inserted into the sorted tail. */
  lemma SortStep(x: FlightResponse, s: seq<FlightResponse>)
    ensures SortByFare([x] + s) == Insert(x, SortByFare(s))
  {
    assert ([x] + s)[1..] == s;
  }

  /** An offer not dearer than the head goes in front of it. */
  lemma InsertAhead(x: FlightResponse, s: seq<FlightResponse>)
    requires |s| == 0 || x.fare <= s[0].fare
    ensures Insert(x, s) == [x] + s
  {
  }

  /** Two offers are swapped exactly when the first is dearer. */
  lemma SortPair(x: FlightResponse, y: FlightResponse)
    ensures SortByFare([x, y]) == if x.fare <= y.fare then [x, y] else [y, x]
  {
    SortStep(y, []);
    assert [y] + [] == [y];
    SortStep(x, [y]);
    assert [x] + [y] == [x, y];
    if x.fare > y.fare {
      InsertBehind(x, y, []);
    }
  }

  /** Three offers whose last is the cheapest and whose first two are in
      order: the last moves to the front. */
  lemma SortLastToFront(x: FlightResponse, y: FlightResponse, z: FlightResponse)
    requires z.fare < x.fare <= y.fare
    ensures SortByFare([x, y, z]) == [z, x, y]
  {
    SortPair(y, z);
    SortStep(x, [y, z]);
    assert [x] + [y, z] == [x, y, z];
    assert [z, y] == [z] + [y];
    InsertBehind(x, z, [y]);
    InsertAhead(x, [y]);
  }

  /** Three offers whose middle is the cheapest and whose last is the
      dearest: the middle moves to the front. */
  lemma SortMiddleToFront(x: FlightResponse, y: FlightResponse, z: FlightResponse)
    requires y.fare < x.fare <= z.fare
    ensures SortByFare([x, y, z]) == [y, x, z]
  {
    SortPair(y, z);
    SortStep(x, [y, z]);
    assert [x] + [y, z] == [x, y, z];
    assert [y, z] == [y] + [z];
    InsertBehind(x, y, [z]);
    InsertAhead(x, [z]);
  }

  /** An offer dearer than the head goes behind it. */
  lemma InsertBehind(x: FlightResponse, y: FlightResponse, s: seq<FlightResponse>)
    requires x.fare > y.fare
    ensures Insert(x, [y] + s) == [y] + Insert(x, s)
  {
    assert ([y] + s)[1..] == s;
  }

  lemma HeadHasOwnFare(s: seq<FlightResponse>)
    ensures |s| > 0 ==> WithFare(s, s[0].fare) != []
  {
  }

  /** Sortedness and per-fare order determine the arrangement: two sorted
      sequences that agree on the offers of every fare are equal. */
  lemma {:induction false} SortedStableUnique(a: seq<FlightResponse>, b: seq<FlightResponse>)
    requires SortedByFare(a) && SortedByFare(b)
    requires forall fare :: WithFare(a, fare) == WithFare(b, fare)
    ensures a == b
    decreases |a| + |b|
  {
    HeadHasOwnFare(a);
    HeadHasOwnFare(b);
    if |a| > 0 && |b| > 0 {
      InWithFare(b, b[0]);
      WithFareMembers(a, b[0].fare, b[0]);
      InWithFare(a, a[0]);
      WithFareMembers(b, a[0].fare, a[0]);
      var f := a[0].fare;
      assert f == b[0].fare;
      assert WithFare(a, f) == [a[0]] + WithFare(a[1..], f);
      assert WithFare(b, f) == [b[0]] + WithFare(b[1..], f);
      assert WithFare(a, f)[0] == a[0] && WithFare(b, f)[0] == b[0];
      forall g ensures WithFare(a[1..], g) == WithFare(b[1..], g) {
        if g != f {
          assert WithFare(a, g) == WithFare(a[1..], g);
          assert WithFare(b, g) == WithFare(b[1..], g);
        } else {
          assert WithFare(a, g)[1..] == WithFare(a[1..], g);
          assert WithFare(b, g)[1..] == WithFare(b[1..], g);
        }
      }
      SortedStableUnique(a[1..], b[1..]);
      assert a == [a[0]] + a[1..];
      assert b == [b[0]] + b[1..];
    }
  }

  /** Hence the sort is the only arrangement with the three properties of
      its contract. */
  lemma SortByFareIsUnique(s: seq<FlightResponse>, t: seq<FlightResponse>)
    requires SortedByFare(t)
    requires forall fare :: WithFare(t, fare) == WithFare(s, fare)
    ensures t == SortByFare(s)
  {
    SortByFareCorrect(s);
    SortedStableUnique(t, SortByFare(s));
  }
}

=== FILE: flight_search.dfy ===
/** The fan-out of `SearchFlightsService.search`: every registered supplier
    client is called with the request, and the futures are joined in
    registration order, whatever order the calls complete in. */
module FlightSearch {
  import opened Wrappers
  import opened Domain
  import opened SearchRequests
  import opened Exchange
  import opened Aggregator
  import opened FareOrder
  import Query
  import ToughJet
  import CrazyAir

  /** A registered supplier client: its adapter, its configured base URL
      and the transport it sends through. */
  datatype SupplierClient =
    | CrazyAirClient(apiUrl: string, crazyAirHttp: string -> Exchange<CrazyAir.CrazyAirResponse>)
    | ToughJetClient(apiUrl: string, toughJetHttp: string -> Exchange<ToughJet.ToughJetResponse>)

  /** Each adapter's five wire names are distinct, so each supplier reads
      the request back out of its URL (`Query.RequestFromUrl`). */
  lemma WireNamesDistinct()
    ensures Query.DistinctNames(ToughJet.WireNames)
    ensures Query.DistinctNames(CrazyAir.WireNames)
  {
  }

  /** The supplier behind a client, as its adapter names itself. */
  function SupplierOf(client: SupplierClient): string {
    match client
    case CrazyAirClient(_, _) => CrazyAir.SupplierName
    case ToughJetClient(_, _) => ToughJet.SupplierName
  }

  /** `FlightSupplierClient.search` dispatched to the client's adapter: the
      client's own transport is asked its adapter's URL, the call succeeds
      exactly when that exchange does, with the adapter's offer for each
      record, and otherwise fails with that adapter's bad response or failed
      call; whatever comes back is attributed to the client's own supplier. */
  function CallSupplier(client: SupplierClient, req: SearchRequest): (o: Outcome)
    requires ValidRequest(req)
    ensures o.Err? ==> o.error.supplier == SupplierOf(client)
    ensures o.Ok? ==> forall i :: 0 <= i < |o.value| ==> o.value[i].supplier == SupplierOf(client)
    ensures client.CrazyAirClient? ==>
      var ex := client.crazyAirHttp(Query.RequestUrl(client.apiUrl, CrazyAir.WireNames, req));
      && (o.Ok? <==> Succeeded(ex))
      && (o.Ok? ==> |o.value| == |ex.body.value|
                    && forall i :: 0 <= i < |o.value| ==> o.value[i] == CrazyAir.ToOffer(ex.body.value[i]))
      && (ex.Response? && !Succeeded(ex) ==> o == Err(BadResponse("CrazyAir", ex.status)))
      && (ex.TransportError? ==> o == Err(TransportFailure("CrazyAir", ex.cause)))
    ensures client.ToughJetClient? ==>
      var ex := client.toughJetHttp(Query.RequestUrl(client.apiUrl, ToughJet.WireNames, req));
      && (o.Ok? <==> Succeeded(ex))
      && (o.Ok? ==> |o.value| == |ex.body.value|
                    && forall i :: 0 <= i < |o.value| ==> o.value[i] == ToughJet.ToOffer(ex.body.value[i]))
      && (ex.Response? && !Succeeded(ex) ==> o == Err(BadResponse("ToughJet", ex.status)))
      && (ex.TransportError? ==> o == Err(TransportFailure("ToughJet", ex.cause)))
  {
    match client
    case CrazyAirClient(url, http) => CrazyAir.Search(url, req, http)
    case ToughJetClient(url, http) => ToughJet.Search(url, req, http)
  }

  /** One supplier call that has completed: its registration position and
      what its future holds. */
  datatype Completion = Completion(position: nat, outcome: Outcome)

  /** The calls in completion order: `order[k]` is the position of the k-th
      call to complete. */
  function CompletionsIn(os: seq<Outcome>, order: seq<nat>): (cs: seq<Completion>)
    requires forall k :: 0 <= k < |order| ==> order[k] < |os|
    ensures |cs| == |order|
    ensures forall k :: 0 <= k < |cs| ==> cs[k] == Completion(order[k], os[order[k]])
  {
    seq(|order|, k requires 0 <= k < |order| => Completion(order[k], os[order[k]]))
  }

  predicate Completed(cs: seq<Completion>, position: nat) {
    exists k :: 0 <= k < |cs| && cs[k].position == position
  }

  /** `future.join()` on the future of one position: what the call at that
      position completed with. */
  function Await(cs: seq<Completion>, position: nat): (o: Outcome)
    requires Completed(cs, position)
    ensures exists k :: 0 <= k < |cs| && cs[k] == Completion(position, o)
  {
    if cs[0].position == position then cs[0].outcome
    else
      assert Completed(cs[1..], position) by {
        var k :| 0 <= k < |cs| && cs[k].position == position;
        assert cs[1..][k - 1] == cs[k];
      }
      var o := Await(cs[1..], position);
      assert exists k :: 0 <= k < |cs| && cs[k] == Completion(position, o) by {
        var k :| 0 <= k < |cs[1..]| && cs[1..][k] == Completion(position, o);
        assert cs[k + 1] == cs[1..][k];
      }
      o
  }

  /** The join loop: the futures awaited one by one in registration order,
      each joined outcome being what the call at its position completed
      with. */
  function JoinInOrder(cs: seq<Completion>, n: nat): (os: seq<Outcome>)
    requires forall i :: 0 <= i < n ==> Completed(cs, i)
    ensures |os| == n
    ensures forall i :: 0 <= i < n ==> exists k :: 0 <= k < |cs| && cs[k] == Completion(i, os[i])
  {
    seq(n, i requires 0 <= i < n => Await(cs, i))
  }

  lemma {:induction false} AwaitFinds(cs: seq<Completion>, position: nat, o: Outcome)
    requires Completed(cs, position)
    requires forall k :: 0 <= k < |cs| && cs[k].position == position ==> cs[k].outcome == o
    ensures Await(cs, position) == o
  {
    if cs[0].position != position {
      var k :| 0 <= k < |cs| && cs[k].position == position;
      assert cs[1..][k - 1] == cs[k];
      AwaitFinds(cs[1..], position, o);
    }
  }

  /** Whatever order the calls complete in, the join yields the outcomes in
      registration order, so the search result never depends on it. */
  lemma CompletionOrderIrrelevant(os: seq<Outcome>, order: seq<nat>)
    requires forall k :: 0 <= k < |order| ==> order[k] < |os|
    requires forall i :: 0 <= i < |os| ==> i in order
    ensures forall i :: 0 <= i < |os| ==> Completed(CompletionsIn(os, order), i)
    ensures JoinInOrder(CompletionsIn(os, order), |os|) == os
    ensures Search(JoinInOrder(CompletionsIn(os, order), |os|)) == Search(os)
  {
    var cs := CompletionsIn(os, order);
    forall i | 0 <= i < |os| ensures Completed(cs, i) {
      assert i in order;
      var k :| 0 <= k < |order| && order[k] == i;
      assert cs[k].position == i;
    }
    forall i | 0 <= i < |os| ensures Await(cs, i) == os[i] {
      AwaitFinds(cs, i, os[i]);
    }
  }

  /** Every registered client called with the request, in registration
      order. */
  function Outcomes(clients: seq<SupplierClient>, req: SearchRequest): (os: seq<Outcome>)
    requires ValidRequest(req)
    ensures |os| == |clients|
    ensures forall i :: 0 <= i < |clients| ==> os[i] == CallSupplier(clients[i], req)
  {
    seq(|clients|, i requires 0 <= i < |clients| => CallSupplier(clients[i], req))
  }

  /** The whole search: each registered client called with the request,
      then the aggregate over their outcomes in registration order. It fails
      exactly when every call failed, with the first client's failure;
      otherwise it returns the clients' combined offers sorted by fare,
      nothing added or lost, equal fares in combined order. */
  function SearchFlights(clients: seq<SupplierClient>, req: SearchRequest)
    : (r: Result<seq<FlightResponse>, SearchError>)
    requires ValidRequest(req)
    ensures r.Err? <==> forall i :: 0 <= i < |clients| ==> CallSupplier(clients[i], req).Err?
    ensures r.Err? && |clients| > 0 ==> r.error == AllSuppliersFailed(CallSupplier(clients[0], req).error)
    ensures |clients| == 0 ==> r == Err(NoSupplierRegistered)
    ensures r.Ok? ==> SortedByFare(r.value)
    ensures r.Ok? ==> multiset(r.value) == multiset(Offers(Outcomes(clients, req)))
    ensures r.Ok? ==> forall fare :: WithFare(r.value, fare) == WithFare(Offers(Outcomes(clients, req)), fare)
  {
    Search(Outcomes(clients, req))
  }

  /** The search over two registered clients: the aggregate of their two
      outcomes, first client first. */
  lemma SearchFlightsOverTwo(first: SupplierClient, second: SupplierClient, req: SearchRequest)
    requires ValidRequest(req)
    ensures SearchFlights([first, second], req) == Search([CallSupplier(first, req), CallSupplier(second, req)])
  {
    assert Outcomes([first, second], req) == [CallSupplier(first, req), CallSupplier(second, req)];
  }
}

=== FILE: query.dfy ===
/** The query string an adapter sends: five named parameters built from the
    request in a fixed order, and the plain `base?name=value&...` rendering
    of it (percent-encoding is left to the URI library). */
module Query {
  import opened Wrappers
  import opened Decimal
  import opened Domain
  import opened SearchRequests

  datatype QueryParam = QueryParam(name: string, value: string)

  /** A supplier's wire names for origin, destination, the two dates and
      the passenger count, in the order the adapter adds them. */
  datatype ParamNames = ParamNames(
    origin: string,
    destination: string,
    departureDate: string,
    returnDate: string,
    passengers: string)

  function NameList(names: ParamNames): seq<string> {
    [names.origin, names.destination, names.departureDate, names.returnDate, names.passengers]
  }

  predicate DistinctNames(names: ParamNames) {
    var l := NameList(names);
    forall i, j :: 0 <= i < j < |l| ==> l[i] != l[j]
  }

  function Names(q: seq<QueryParam>): (ns: seq<string>)
    ensures |ns| == |q|
  {
    seq(|q|, i requires 0 <= i < |q| => q[i].name)
  }

  /** The parameters of a validated request under a supplier's names: each
      request field appears once, under its own name, in the fixed order. */
  function Build(names: ParamNames, req: SearchRequest): (q: seq<QueryParam>)
    requires ValidRequest(req)
    ensures Names(q) == NameList(names)
  {
    [ QueryParam(names.origin, req.origin.value),
      QueryParam(names.destination, req.destination.value),
      QueryParam(names.departureDate, req.departureDate.value.iso),
      QueryParam(names.returnDate, req.returnDate.value.iso),
      QueryParam(names.passengers, NatToString(req.numberOfPassengers)) ]
  }

  /** The value of the first parameter called `name`, as a server reads it. */
  function Lookup(q: seq<QueryParam>, name: string): (v: Option<string>)
    ensures v.Some? <==> exists i :: 0 <= i < |q| && q[i].name == name
  {
    if |q| == 0 then None
    else if q[0].name == name then Some(q[0].value)
    else Lookup(q[1..], name)
  }

  /** `Lookup` finds the first parameter carrying the name. */
  lemma {:induction false} LookupFirst(q: seq<QueryParam>, k: nat, name: string)
    requires k < |q| && q[k].name == name
    requires forall j :: 0 <= j < k ==> q[j].name != name
    ensures Lookup(q, name) == Some(q[k].value)
  {
    if k > 0 {
      LookupFirst(q[1..], k - 1, name);
    }
  }

  /** How the supplier reads the request back out of the query string. */
  function Parse(names: ParamNames, q: seq<QueryParam>): Option<SearchRequest> {
    var origin := Lookup(q, names.origin);
    var destination := Lookup(q, names.destination);
    var departure := Lookup(q, names.departureDate);
    var ret := Lookup(q, names.returnDate);
    var passengers := Lookup(q, names.passengers);
    if origin.None? || destination.None? || departure.None? || ret.None?
       || passengers.None? || !AllDigits(passengers.value)
    then None
    else Some(SearchRequest(origin, destination, Some(LocalDate(departure.value)),
                            Some(LocalDate(ret.value)), ParseNat(passengers.value)))
  }

  /** Nothing of the request is lost on the wire: under distinct names the
      supplier reads back exactly the request that was sent. */
  lemma ParseBuild(names: ParamNames, req: SearchRequest)
    requires DistinctNames(names)
    requires ValidRequest(req)
    ensures Parse(names, Build(names, req)) == Some(req)
  {
    var q := Build(names, req);
    var l := NameList(names);
    assert l[0] != l[1] && l[0] != l[2] && l[0] != l[3] && l[0] != l[4];
    assert l[1] != l[2] && l[1] != l[3] && l[1] != l[4];
    assert l[2] != l[3] && l[2] != l[4] && l[3] != l[4];
    LookupFirst(q, 0, names.origin);
    LookupFirst(q, 1, names.destination);
    LookupFirst(q, 2, names.departureDate);
    LookupFirst(q, 3, names.returnDate);
    LookupFirst(q, 4, names.passengers);
    ParseNatToString(req.numberOfPassengers);
  }

  /** One parameter on the wire. */
  function Pair(p: QueryParam): string {
    p.name + "=" + p.value
  }

  /** The query string: the pairs in order, separated by `&`. */
  function JoinParams(q: seq<QueryParam>): string {
    if |q| == 0 then ""
    else if |q| == 1 then Pair(q[0])
    else Pair(q[0]) + "&" + JoinParams(q[1..])
  }

  /** The query string of five parameters, written out. */
  lemma JoinFive(q: seq<QueryParam>)
    requires |q| == 5
    ensures JoinParams(q) == Pair(q[0]) + "&" + (Pair(q[1]) + "&" + (Pair(q[2]) + "&" + (Pair(q[3]) + "&" + Pair(q[4]))))
  {
    var q1, q2, q3, q4 := q[1..], q[2..], q[3..], q[4..];
    assert q1[1..] == q2 && q2[1..] == q3 && q3[1..] == q4;
    assert JoinParams(q4) == Pair(q[4]);
    assert JoinParams(q3) == Pair(q[3]) + "&" + JoinParams(q4);
    assert JoinParams(q2) == Pair(q[2]) + "&" + JoinParams(q3);
    assert JoinParams(q1) == Pair(q[1]) + "&" + JoinParams(q2);
  }

  /** The position of the first `c` in `s`, or `|s|` when there is none. */
  function IndexOf(s: string, c: char): (k: nat)
    ensures k <= |s|
    ensures forall j :: 0 <= j < k ==> s[j] != c
    ensures k < |s| ==> s[k] == c
  {
    if |s| == 0 || s[0] == c then 0 else 1 + IndexOf(s[1..], c)
  }

  /** A separator after a stretch free of it is the first one. */
  lemma FirstAt(a: string, c: char, b: string)
    requires c !in a
    ensures IndexOf(a + [c] + b, c) == |a|
  {
    var s := a + [c] + b;
    var k := IndexOf(s, c);
    assert s[|a|] == c;
  }

  /** One pair as the server reads it: the name up to the first `=`, the
      value after it. */
  function ParsePair(pair: string): (p: QueryParam)
    ensures '=' !in p.name
  {
    var k := IndexOf(pair, '=');
    if k < |pair| then QueryParam(pair[..k], pair[k + 1..]) else QueryParam(pair, "")
  }

  /** A query string as the server reads it: pairs separated at each `&`. */
  function ParseQuery(query: string): seq<QueryParam>
    decreases |query|
  {
    if |query| == 0 then []
    else
      var k := IndexOf(query, '&');
      if k < |query| then [ParsePair(query[..k])] + ParseQuery(query[k + 1..])
      else [ParsePair(query)]
  }

  /** Parameters that survive the wire without percent-encoding: no `&`
      anywhere and no `=` in a name. */
  predicate Unreserved(q: seq<QueryParam>) {
    forall i :: 0 <= i < |q| ==> '&' !in q[i].name && '=' !in q[i].name && '&' !in q[i].value
  }

  lemma PairParses(p: QueryParam)
    requires '=' !in p.name
    ensures ParsePair(Pair(p)) == p
    ensures '&' !in p.name && '&' !in p.value ==> '&' !in Pair(p)
  {
    FirstAt(p.name, '=', p.value);
    assert Pair(p) == p.name + ['='] + p.value;
  }

  /** The server reads back exactly the parameters that were joined. */
  lemma {:induction false} ParseJoin(q: seq<QueryParam>)
    requires Unreserved(q)
    ensures ParseQuery(JoinParams(q)) == q
  {
    if |q| > 0 {
      var pair := Pair(q[0]);
      PairParses(q[0]);
      if |q| == 1 {
        assert IndexOf(pair, '&') == |pair|;
      } else {
        var rest := JoinParams(q[1..]);
        var s := pair + "&" + rest;
        FirstAt(pair, '&', rest);
        assert s[..|pair|] == pair && s[|pair| + 1..] == rest;
        assert Unreserved(q[1..]) by {
          forall i | 0 <= i < |q[1..]| ensures '&' !in q[1..][i].name {
            assert q[1..][i] == q[i + 1];
          }
        }
        ParseJoin(q[1..]);
        assert ParseQuery(s) == [q[0]] + q[1..];
      }
    }
  }

  /** The URL requested: the configured base, a `?`, then the parameters,
      which the server splits back into the same list. */
  function RenderUrl(base: string, q: seq<QueryParam>): (url: string)
    ensures |url| > |base| && url[..|base| + 1] == base + "?"
    ensures Unreserved(q) ==> ParseQuery(url[|base| + 1..]) == q
  {
    var url := base + "?" + JoinParams(q);
    assert url[|base| + 1..] == JoinParams(q);
    assert Unreserved(q) ==> ParseQuery(JoinParams(q)) == q by {
      if Unreserved(q) {
        ParseJoin(q);
      }
    }
    url
  }

  /** The URL an adapter requests: its configured base URL and the five
      parameters under its names, the origin first. */
  function RequestUrl(apiUrl: string, names: ParamNames, req: SearchRequest): (url: string)
    requires ValidRequest(req)
    ensures |url| > |apiUrl| && url[..|apiUrl| + 1] == apiUrl + "?"
    ensures apiUrl + "?" + names.origin + "=" + req.origin.value <= url
  {
    var q := Build(names, req);
    assert JoinParams(q) == Pair(q[0]) + "&" + JoinParams(q[1..]);
    assert apiUrl + "?" + JoinParams(q) == (apiUrl + "?" + names.origin + "=" + req.origin.value) + ("&" + JoinParams(q[1..]));
    RenderUrl(apiUrl, q)
  }

  /** Nothing of the request is lost between the adapter and the supplier:
      under distinct names and values free of `&`, the supplier finds the
      five parameters in order in the URL and reads the request back. */
  lemma RequestFromUrl(apiUrl: string, names: ParamNames, req: SearchRequest)
    requires DistinctNames(names)
    requires ValidRequest(req)
    requires Unreserved(Build(names, req))
    ensures var query := ParseQuery(RequestUrl(apiUrl, names, req)[|apiUrl| + 1..]);
      && Names(query) == NameList(names)
      && Parse(names, query) == Some(req)
  {
    ParseBuild(names, req);
  }
}

=== FILE: search_request.dfy ===
/** The search request bound from the query string, and its bean-validation
    constraints as a predicate. */
module SearchRequests {
  import opened Wrappers
  import opened Domain

  /** The request record; the reference-typed components may be null. */
  datatype SearchRequest = SearchRequest(
    origin: Option<string>,
    destination: Option<string>,
    departureDate: Option<LocalDate>,
    returnDate: Option<LocalDate>,
    numberOfPassengers: int)

  /** `String.trim()` drops every character up to U+0020 from both ends, so
      a string is blank exactly when it holds no character above U+0020. */
  predicate IsBlank(s: string) {
    forall i :: 0 <= i < |s| ==> s[i] <= ' '
  }

  /** `@NotBlank @Size(min = 3, max = 3)` on one airport code. */
  predicate ValidCode(code: Option<string>) {
    code.Some? && !IsBlank(code.value) && |code.value| == 3
  }

  /** Every constraint of the record holds. */
  predicate ValidRequest(r: SearchRequest) {
    && ValidCode(r.origin)
    && ValidCode(r.destination)
    && r.departureDate.Some?
    && r.returnDate.Some?
    && 1 <= r.numberOfPassengers <= 4
  }

  /** One failed constraint, named by field and annotation. */
  datatype Violation =
    | OriginNotBlank | OriginSize
    | DestinationNotBlank | DestinationSize
    | DepartureDateNotNull | ReturnDateNotNull
    | PassengersMin | PassengersMax

  /** `@NotBlank` on an airport code: fails on null or blank text. */
  predicate NotBlankFails(code: Option<string>) {
    code.None? || IsBlank(code.value)
  }

  /** `@Size(min = 3, max = 3)` on an airport code: null passes, any other
      length than three fails. */
  predicate SizeFails(code: Option<string>) {
    code.Some? && |code.value| != 3
  }

  /** The constraint checks of one airport code: each of its two
      constraints is reported exactly when it fails. */
  function CodeViolations(code: Option<string>, notBlank: Violation, size: Violation): (vs: set<Violation>)
    requires notBlank != size
    ensures vs == {} <==> ValidCode(code)
    ensures vs <= {notBlank, size}
    ensures notBlank in vs <==> code.None? || IsBlank(code.value)
    ensures size in vs <==> code.Some? && |code.value| != 3
  {
    (if NotBlankFails(code) then {notBlank} else {})
    + (if SizeFails(code) then {size} else {})
  }

  /** Whether one constraint of the record fails on the request. */
  predicate Fails(r: SearchRequest, v: Violation) {
    match v
    case OriginNotBlank => NotBlankFails(r.origin)
    case OriginSize => SizeFails(r.origin)
    case DestinationNotBlank => NotBlankFails(r.destination)
    case DestinationSize => SizeFails(r.destination)
    case DepartureDateNotNull => r.departureDate.None?
    case ReturnDateNotNull => r.returnDate.None?
    case PassengersMin => r.numberOfPassengers < 1
    case PassengersMax => r.numberOfPassengers > 4
  }

  const AllConstraints: set<Violation> := {
    OriginNotBlank, OriginSize, DestinationNotBlank, DestinationSize,
    DepartureDateNotNull, ReturnDateNotNull, PassengersMin, PassengersMax }

  /** What the validator reports, as the set of failed constraints; the
      request is accepted exactly when it reports nothing, and each
      annotation is reported exactly when its own condition fails. */
  function Violations(r: SearchRequest): (vs: set<Violation>)
    ensures vs == {} <==> ValidRequest(r)
    ensures PassengersMax in vs <==> r.numberOfPassengers > 4
    ensures PassengersMin in vs <==> r.numberOfPassengers < 1
    ensures OriginSize in vs <==> r.origin.Some? && |r.origin.value| != 3
    ensures DestinationSize in vs <==> r.destination.Some? && |r.destination.value| != 3
    ensures DepartureDateNotNull in vs <==> r.departureDate.None?
    ensures ReturnDateNotNull in vs <==> r.returnDate.None?
    ensures OriginNotBlank in vs <==> r.origin.None? || IsBlank(r.origin.value)
    ensures DestinationNotBlank in vs <==> r.destination.None? || IsBlank(r.destination.value)
    ensures vs * {OriginNotBlank, OriginSize} == CodeViolations(r.origin, OriginNotBlank, OriginSize)
    ensures vs * {DestinationNotBlank, DestinationSize}
         == CodeViolations(r.destination, DestinationNotBlank, DestinationSize)
  {
    var vs := set v | v in AllConstraints && Fails(r, v);
    assert !ValidRequest(r) ==> vs != {} by {
      if !ValidCode(r.origin) {
        assert OriginNotBlank in vs || OriginSize in vs;
      } else if !ValidCode(r.destination) {
        assert DestinationNotBlank in vs || DestinationSize in vs;
      } else if r.departureDate.None? {
        assert DepartureDateNotNull in vs;
      } else if r.returnDate.None? {
        assert ReturnDateNotNull in vs;
      } else if r.numberOfPassengers < 1 {
        assert PassengersMin in vs;
      } else if r.numberOfPassengers > 4 {
        assert PassengersMax in vs;
      }
    }
    vs
  }

  /** The request the tests use throughout: LHR to AMS, 20 to 25 July 2025. */
  function Example(passengers: int): SearchRequest {
    SearchRequest(Some("LHR"), Some("AMS"), Some(LocalDate("2025-07-20")),
                  Some(LocalDate("2025-07-25")), passengers)
  }

  lemma NonBlankCodes()
    ensures !IsBlank("LHR") && !IsBlank("AMS") && !IsBlank("LH") && !IsBlank("AMS4")
  {
    assert "LHR"[0] > ' ' && "AMS"[0] > ' ' && "LH"[0] > ' ' && "AMS4"[0] > ' ';
  }

  /** The request of the tests is accepted. Nothing orders the two dates:
      a return before the departure is accepted as well. */
  lemma AcceptedRequests(passengers: int)
    requires 1 <= passengers <= 4
    ensures ValidRequest(Example(passengers))
    ensures ValidRequest(Example(passengers).(returnDate := Some(LocalDate("2025-07-01"))))
  {
    NonBlankCodes();
  }

  /** Five passengers break `@Max(4)` and nothing else. */
  lemma RejectsFivePassengers()
    ensures Violations(Example(5)) == {PassengersMax}
  {
    NonBlankCodes();
  }

  /** "LH" is too short and "AMS4" too long for an airport code. */
  lemma RejectsWrongCodeLength()
    ensures Violations(Example(1).(origin := Some("LH"))) == {OriginSize}
    ensures Violations(Example(1).(destination := Some("AMS4"))) == {DestinationSize}
  {
    NonBlankCodes();
  }

  /** Three spaces have the right length but are blank; a missing code is
      reported by `@NotBlank` only, since `@Size` accepts null. */
  lemma RejectsBlankCode()
    ensures Violations(Example(1).(origin := Some("   "))) == {OriginNotBlank}
    ensures Violations(Example(1).(origin := None)) == {OriginNotBlank}
  {
    NonBlankCodes();
  }

  /** A missing departure date is rejected. */
  lemma RejectsMissingDate()
    ensures Violations(Example(1).(departureDate := None)) == {DepartureDateNotNull}
  {
    NonBlankCodes();
  }
}

=== FILE: search_scenarios.dfy ===
/** The aggregator tests and the end-to-end scenario of the application
    test, stated over the model. */
module SearchScenarios {
  import opened Wrappers
  import opened Domain
  import opened SearchRequests
  import opened Exchange
  import opened FareOrder
  import opened Aggregator
  import opened FlightSearch
  import ToughJet
  import CrazyAir
  import Fare
  import Query

  const Ten := LocalDateTime("2025-07-20T10:00")
  const Noon := LocalDateTime("2025-07-20T12:00")

  const Offer1 := FlightResponse("Airline1", "CrazyAir", 200.0, "LHR", "AMS", Ten, Noon)
  const Offer2 := FlightResponse("Airline2", "ToughJet", 250.0, "LHR", "AMS", Ten, Noon)
  const Offer3 := FlightResponse("Airline3", "ToughJet", 150.0, "LHR", "AMS",
                                 LocalDateTime("2025-07-20T14:00"), LocalDateTime("2025-07-20T16:00"))

  /** The combined list of two suppliers: the first one's offers, then the
      second one's. */
  lemma OffersOfTwo(a: Outcome, b: Outcome)
    ensures Offers([a, b]) == Contribution(a) + Contribution(b)
  {
    OffersAppend([a], [b]);
    OffersSingle(a);
    OffersSingle(b);
    assert [a] + [b] == [a, b];
  }

  /** Two suppliers' offers are combined and ordered 150, 200, 250. */
  lemma CombinedAndSorted()
    ensures Search([Ok([Offer1]), Ok([Offer2, Offer3])]) == Ok([Offer3, Offer1, Offer2])
  {
    var os: seq<Outcome> := [Ok([Offer1]), Ok([Offer2, Offer3])];
    OffersOfTwo(os[0], os[1]);
    assert !AllFailed(os) by { assert os[0].Ok?; }
    SearchSucceeds(os);
    SortedExample();
  }

  lemma SortedExample()
    ensures SortByFare([Offer1, Offer2, Offer3]) == [Offer3, Offer1, Offer2]
  {
    SortLastToFront(Offer1, Offer2, Offer3);
  }

  /** A failing supplier is ignored when another one answers. */
  lemma IgnoresFailingSupplier()
    ensures Search([Ok([Offer1]), Err(TransportFailure("ToughJet", "Supplier failed with exception"))])
         == Ok([Offer1])
  {
    var os: seq<Outcome> := [Ok([Offer1]), Err(TransportFailure("ToughJet", "Supplier failed with exception"))];
    OffersOfTwo(os[0], os[1]);
    assert Offers(os) == [Offer1];
  }

  /** When both suppliers fail, the search fails with the first failure. */
  lemma AllSuppliersFail()
    ensures Search([Err(TransportFailure("CrazyAir", "Supplier fetch failed")),
                    Err(TransportFailure("ToughJet", "Supplier fetch failed"))])
         == Err(AllSuppliersFailed(TransportFailure("CrazyAir", "Supplier fetch failed")))
  {
  }

  const CrazyTie := FlightResponse("CrazyAir", "CrazyAir", 120.0, "LHR", "AMS", Ten, Noon)
  const ToughTie := FlightResponse("ToughJetAir", "ToughJet", 120.0, "LHR", "AMS", Ten, Noon)

  /** Two offers of the same fare come out in the registration order of
      their suppliers, whichever supplier is registered first. */
  lemma TieKeepsRegistrationOrder()
    ensures Search([Ok([CrazyTie]), Ok([ToughTie])]) == Ok([CrazyTie, ToughTie])
    ensures Search([Ok([ToughTie]), Ok([CrazyTie])]) == Ok([ToughTie, CrazyTie])
  {
    OneOfferEach(CrazyTie, ToughTie);
    OneOfferEach(ToughTie, CrazyTie);
  }

  /** Two suppliers with one offer each: the cheaper one first, the first
      supplier's on a tie. */
  lemma OneOfferEach(x: FlightResponse, y: FlightResponse)
    ensures Search([Ok([x]), Ok([y])]) == Ok(if x.fare <= y.fare then [x, y] else [y, x])
  {
    var os: seq<Outcome> := [Ok([x]), Ok([y])];
    OffersOfTwo(os[0], os[1]);
    assert !AllFailed(os) by { assert os[0].Ok?; }
    SearchSucceeds(os);
    SortPair(x, y);
  }

  const Return := LocalDateTime("2025-07-25T20:00")
  const CrazyRecord := CrazyAir.CrazyAirResponse("CrazyAir", 123.45, "E", "LHR", "AMS", Ten, Noon)
  const ToughRecord1 := ToughJet.ToughJetResponse("ToughJetAir1", 100.0, 10.0, 10.0, "LHR", "AMS", Ten, Return)
  const ToughRecord2 := ToughJet.ToughJetResponse("ToughJetAir2", 320.0, 45.0, 20.0, "LHR", "AMS", Ten, Return)
  const CrazyOffer := FlightResponse("CrazyAir", "CrazyAir", 123.45, "LHR", "AMS", Ten, Noon)
  const ToughOffer1 := FlightResponse("ToughJetAir1", "ToughJet", 99.0, "LHR", "AMS", Ten, Return)
  const ToughOffer2 := FlightResponse("ToughJetAir2", "ToughJet", 292.0, "LHR", "AMS", Ten, Return)

  /** The URLs the adapters request for one passenger from LHR to AMS, 20
      to 25 July 2025: the path and the five query parameters the servers'
      stubs match. */
  const CrazyUrl := (AcceptedRequests(1); Query.RequestUrl("http://localhost:8001/flights", CrazyAir.WireNames, Example(1)))
  const ToughUrl := (AcceptedRequests(1); Query.RequestUrl("http://localhost:8002/flights", ToughJet.WireNames, Example(1)))

  /** Supplier stubs that answer only the request's URL. */
  const CrazyStub: string -> Exchange<CrazyAir.CrazyAirResponse> := Stub(CrazyUrl, Response(200, Some([CrazyRecord])))
  const ToughStub: string -> Exchange<ToughJet.ToughJetResponse> :=
    Stub(ToughUrl, Response(200, Some([ToughRecord1, ToughRecord2])))
  const Clients := [ CrazyAirClient("http://localhost:8001/flights", CrazyStub),
                     ToughJetClient("http://localhost:8002/flights", ToughStub) ]

  lemma CrazyAirAnswers()
    ensures ValidRequest(Example(1))
    ensures CallSupplier(Clients[0], Example(1)) == Ok([CrazyOffer])
  {
    AcceptedRequests(1);
    var r := CallSupplier(Clients[0], Example(1));
    assert CrazyStub(Query.RequestUrl("http://localhost:8001/flights", CrazyAir.WireNames, Example(1))) == Response(200, Some([CrazyRecord]));
    assert r.Ok? && |r.value| == 1;
    assert r.value[0] == CrazyAir.ToOffer(CrazyRecord) == CrazyOffer;
    assert r.value == [CrazyOffer];
  }

  lemma ToughJetAnswers()
    ensures ValidRequest(Example(1))
    ensures CallSupplier(Clients[1], Example(1)) == Ok([ToughOffer1, ToughOffer2])
  {
    AcceptedRequests(1);
    var ex := ToughStub(Query.RequestUrl("http://localhost:8002/flights", ToughJet.WireNames, Example(1)));
    assert ex == Response(200, Some([ToughRecord1, ToughRecord2]));
    assert CallSupplier(Clients[1], Example(1)) == Translate(ToughJet.SupplierName, ex, ToughJet.ToOffer);
    ToughJetOffers();
  }

  /** The two ToughJet records priced: 99.00 and 292.00. */
  lemma ToughJetOffers()
    ensures Translate(ToughJet.SupplierName, Response(200, Some([ToughRecord1, ToughRecord2])), ToughJet.ToOffer)
         == Ok([ToughOffer1, ToughOffer2])
  {
    Fare.WorkedFares();
    assert ToughJet.ToOffer(ToughRecord1) == ToughOffer1;
    assert ToughJet.ToOffer(ToughRecord2) == ToughOffer2;
    assert MapRecords([ToughRecord1, ToughRecord2], ToughJet.ToOffer) == [ToughOffer1, ToughOffer2];
  }

  lemma MergedExampleSorted()
    ensures SortByFare([CrazyOffer, ToughOffer1, ToughOffer2]) == [ToughOffer1, CrazyOffer, ToughOffer2]
  {
    SortMiddleToFront(CrazyOffer, ToughOffer1, ToughOffer2);
  }

  /** Both suppliers answering: one CrazyAir offer at 123.45 and two
      ToughJet offers priced 99.00 and 292.00 come out cheapest first. */
  lemma MergedResultsFromAllSuppliers()
    ensures ValidRequest(Example(1))
    ensures SearchFlights(Clients, Example(1)) == Ok([ToughOffer1, CrazyOffer, ToughOffer2])
  {
    CrazyAirAnswers();
    ToughJetAnswers();
    SearchFlightsOverTwo(Clients[0], Clients[1], Example(1));
    MergedSearch();
  }

  lemma MergedSearch()
    ensures Search([Ok([CrazyOffer]), Ok([ToughOffer1, ToughOffer2])]) == Ok([ToughOffer1, CrazyOffer, ToughOffer2])
  {
    var os: seq<Outcome> := [Ok([CrazyOffer]), Ok([ToughOffer1, ToughOffer2])];
    OffersOfTwo(os[0], os[1]);
    assert !AllFailed(os) by { assert os[0].Ok?; }
    SearchSucceeds(os);
    MergedExampleSorted();
  }

  const CrazyEmpty: string -> Exchange<CrazyAir.CrazyAirResponse> := (u: string) => Response(200, Some([]))
  const ToughEmpty: string -> Exchange<ToughJet.ToughJetResponse> := (u: string) => Response(200, Some([]))
  /** A server answering 500 behind a real `RestTemplate`: its default
      error handler raises the status before the adapter reads it. */
  const CrazyDown: string -> Exchange<CrazyAir.CrazyAirResponse> := (u: string) => DefaultErrorHandling(Response(500, None))
  const ToughDown: string -> Exchange<ToughJet.ToughJetResponse> := (u: string) => DefaultErrorHandling(Response(500, None))

  const EmptyClients := [ CrazyAirClient("http://localhost:8001/flights", CrazyEmpty),
                          ToughJetClient("http://localhost:8002/flights", ToughEmpty) ]
  const DownClients := [ CrazyAirClient("http://localhost:8001/flights", CrazyDown),
                         ToughJetClient("http://localhost:8002/flights", ToughDown) ]

  lemma CrazyAirEmpty()
    ensures ValidRequest(Example(1))
    ensures CallSupplier(EmptyClients[0], Example(1)) == Ok([])
  {
    AcceptedRequests(1);
    assert CrazyEmpty(Query.RequestUrl("http://localhost:8001/flights", CrazyAir.WireNames, Example(1))) == Response(200, Some([]));
  }

  lemma ToughJetEmpty()
    ensures ValidRequest(Example(1))
    ensures CallSupplier(EmptyClients[1], Example(1)) == Ok([])
  {
    AcceptedRequests(1);
    assert ToughEmpty(Query.RequestUrl("http://localhost:8002/flights", ToughJet.WireNames, Example(1))) == Response(200, Some([]));
  }

  lemma CrazyAirDown()
    ensures ValidRequest(Example(1))
    ensures CallSupplier(DownClients[0], Example(1)) == Err(TransportFailure("CrazyAir", "HttpServerErrorException"))
  {
    AcceptedRequests(1);
    assert CrazyDown(Query.RequestUrl("http://localhost:8001/flights", CrazyAir.WireNames, Example(1)))
        == TransportError("HttpServerErrorException");
  }

  lemma ToughJetDown()
    ensures ValidRequest(Example(1))
    ensures CallSupplier(DownClients[1], Example(1)) == Err(TransportFailure("ToughJet", "HttpServerErrorException"))
  {
    AcceptedRequests(1);
    assert ToughDown(Query.RequestUrl("http://localhost:8002/flights", ToughJet.WireNames, Example(1)))
        == TransportError("HttpServerErrorException");
  }

  /** Both suppliers answering with no offers give an empty result. */
  lemma EmptyFromAllSuppliers()
    ensures ValidRequest(Example(1))
    ensures SearchFlights(EmptyClients, Example(1)) == Ok([])
  {
    CrazyAirEmpty();
    ToughJetEmpty();
    SearchFlightsOverTwo(EmptyClients[0], EmptyClients[1], Example(1));
    EmptySearch();
  }

  /** Both suppliers answering 500: the search fails with the first
      supplier's failure. */
  lemma FailsWhenAllSuppliersDown()
    ensures ValidRequest(Example(1))
    ensures SearchFlights(DownClients, Example(1))
         == Err(AllSuppliersFailed(TransportFailure("CrazyAir", "HttpServerErrorException")))
    ensures SupplierMessage(SearchFlights(DownClients, Example(1)).error.firstCause) == DownMessage
  {
    CrazyAirDown();
    ToughJetDown();
    SearchFlightsOverTwo(DownClients[0], DownClients[1], Example(1));
    DownSearch();
    DownMessageText();
  }

  const DownMessage := "Error calling supplier CrazyAir API"

  lemma DownMessageText()
    ensures SupplierMessage(TransportFailure("CrazyAir", "HttpServerErrorException")) == DownMessage
  {
  }

  lemma EmptySearch()
    ensures Search([Ok([]), Ok([])]) == Ok([])
  {
    NoOffersIsEmptyResult([Ok([]), Ok([])]);
  }

  lemma DownSearch()
    ensures Search([Err(TransportFailure("CrazyAir", "HttpServerErrorException")),
                    Err(TransportFailure("ToughJet", "HttpServerErrorException"))])
         == Err(AllSuppliersFailed(TransportFailure("CrazyAir", "HttpServerErrorException")))
  {
  }

  /** CrazyAir answering with one offer and ToughJet with none: the one
      offer is the result. */
  lemma OnlyCrazyAirResponds()
    ensures ValidRequest(Example(1))
    ensures SearchFlights([Clients[0], EmptyClients[1]], Example(1)) == Ok([CrazyOffer])
  {
    CrazyAirAnswers();
    ToughJetEmpty();
    SearchFlightsOverTwo(Clients[0], EmptyClients[1], Example(1));
    OneOfferSearch();
  }

  lemma OneOfferSearch()
    ensures Search([Ok([CrazyOffer]), Ok([])]) == Ok([CrazyOffer])
  {
    var os: seq<Outcome> := [Ok([CrazyOffer]), Ok([])];
    OffersOfTwo(os[0], os[1]);
    assert Offers(os) == [CrazyOffer];
    assert !AllFailed(os) by { assert os[0].Ok?; }
    SearchSucceeds(os);
    SortStep(CrazyOffer, []);
    assert [CrazyOffer] + [] == [CrazyOffer];
  }
}

=== FILE: toughjet.dfy ===
/** The ToughJet adapter: `from`/`to`/`outboundDate`/`inboundDate`/
    `numberOfAdults` on the wire, and a fare computed from base price, tax
    and discount. */
module ToughJet {
  import opened Wrappers
  import opened Domain
  import opened SearchRequests
  import opened Query
  import opened Exchange
  import opened Fare

  /** One record of ToughJet's response body. */
  datatype ToughJetResponse = ToughJetResponse(
    carrier: string,
    basePrice: real,
    tax: real,
    discount: real,
    departureAirportName: string,
    arrivalAirportName: string,
    outboundDateTime: LocalDateTime,
    inboundDateTime: LocalDateTime)

  const SupplierName := "ToughJet"

  const WireNames := ParamNames("from", "to", "outboundDate", "inboundDate", "numberOfAdults")

  /** One record as an offer. The timestamps are read as UTC and shown as
      local date-times in UTC, which leaves them as they were. */
  function ToOffer(raw: ToughJetResponse): (offer: FlightResponse)
    ensures offer.supplier == SupplierName
    ensures IsCents(offer.fare)
    ensures offer.fare - 0.005 <= RawFare(raw.basePrice, raw.tax, raw.discount) < offer.fare + 0.005
    ensures (offer.airline, offer.departureAirportCode, offer.destinationAirportCode)
         == (raw.carrier, raw.departureAirportName, raw.arrivalAirportName)
    ensures (offer.departureDate, offer.arrivalDate) == (raw.outboundDateTime, raw.inboundDateTime)
  {
    FlightResponse(
      raw.carrier,
      SupplierName,
      ToughJetFare(raw.basePrice, raw.tax, raw.discount),
      raw.departureAirportName,
      raw.arrivalAirportName,
      raw.outboundDateTime,
      raw.inboundDateTime)
  }

  /** `ToughJetSupplier.search`: one GET of the request's URL through
      `http`, classified and translated record by record. */
  function Search(apiUrl: string, req: SearchRequest, http: string -> Exchange<ToughJetResponse>)
    : (r: Result<seq<FlightResponse>, SupplierError>)
    requires ValidRequest(req)
    ensures var ex := http(RequestUrl(apiUrl, WireNames, req));
      && (r.Ok? <==> Succeeded(ex))
      && (r.Ok? ==> |r.value| == |ex.body.value|
                    && forall i :: 0 <= i < |r.value| ==> r.value[i] == ToOffer(ex.body.value[i]))
      && (r.Ok? ==> forall i :: 0 <= i < |r.value| ==>
            var raw := ex.body.value[i];
            && IsCents(r.value[i].fare)
            && r.value[i].fare - 0.005 <= RawFare(raw.basePrice, raw.tax, raw.discount) < r.value[i].fare + 0.005)
      && (r.Err? ==> r.error.supplier == "ToughJet")
      && (ex.Response? && !Succeeded(ex) ==> r.error == BadResponse("ToughJet", ex.status))
      && (ex.TransportError? ==> r.error == TransportFailure("ToughJet", ex.cause))
  {
    Translate(SupplierName, http(RequestUrl(apiUrl, WireNames, req)), ToOffer)
  }
}

/** The ToughJet adapter tests, with the stubbed transport answering only
    the URL the test expects. */
module ToughJetScenarios {
  import opened Wrappers
  import opened Domain
  import opened SearchRequests
  import opened Exchange
  import opened Fare
  import opened Decimal
  import opened Query
  import opened ToughJet

  const ApiUrl := "http://mock-toughjet.com/flights"
  /** The URL of the tests, in one piece per parameter. */
  const ExpectedUrl := "http://mock-toughjet.com/flights" + "?" + ("from=LHR" + "&" + ("to=AMS" + "&"
    + ("outboundDate=2025-07-20" + "&" + ("inboundDate=2025-07-25" + "&" + "numberOfAdults=2"))))

  lemma TestQuery()
    ensures ValidRequest(Example(2))
    ensures Build(WireNames, Example(2))
         == [QueryParam("from", "LHR"), QueryParam("to", "AMS"), QueryParam("outboundDate", "2025-07-20"),
             QueryParam("inboundDate", "2025-07-25"), QueryParam("numberOfAdults", "2")]
  {
    AcceptedRequests(2);
    assert NatToString(2) == "2";
  }

  /** Two passengers from LHR to AMS give the URL the tests stub. */
  lemma TestUrl()
    ensures ValidRequest(Example(2))
    ensures RequestUrl(ApiUrl, WireNames, Example(2)) == ExpectedUrl
  {
    TestQuery();
    var q := Build(WireNames, Example(2));
    JoinFive(q);
    assert Pair(q[0]) == "from=LHR" && Pair(q[1]) == "to=AMS";
    assert Pair(q[2]) == "outboundDate=2025-07-20" && Pair(q[3]) == "inboundDate=2025-07-25";
    assert Pair(q[4]) == "numberOfAdults=2";
    assert RequestUrl(ApiUrl, WireNames, Example(2)) == ApiUrl + "?" + JoinParams(q);
  }

  /** The stubbed transport answers the adapter's request. */
  lemma StubAnswers(ex: Exchange<ToughJetResponse>)
    ensures ValidRequest(Example(2))
    ensures Search(ApiUrl, Example(2), Stub(ExpectedUrl, ex)) == Translate(SupplierName, ex, ToOffer)
  {
    TestUrl();
  }

  const Single := ToughJetResponse("ToughJet", 100.0, 10.0, 10.0, "LHR", "AMS",
                                   LocalDateTime("2025-07-10T10:00"), LocalDateTime("2025-07-20T20:00"))
  const First := ToughJetResponse("Carrier1", 50.0, 5.0, 10.0, "LHR", "AMS",
                                  LocalDateTime("2025-07-20T08:00"), LocalDateTime("2025-07-25T18:00"))
  const Second := ToughJetResponse("Carrier2", 150.0, 15.0, 50.0, "LHR", "AMS",
                                   LocalDateTime("2025-07-20T09:00"), LocalDateTime("2025-07-25T19:00"))

  /** 100 + 10 at 10% off is offered at 99.00, carrier and times unchanged. */
  lemma SingleFlight()
    ensures ValidRequest(Example(2))
    ensures Search(ApiUrl, Example(2), Stub(ExpectedUrl, Response(200, Some([Single]))))
         == Ok([FlightResponse("ToughJet", "ToughJet", 99.0, "LHR", "AMS",
                               LocalDateTime("2025-07-10T10:00"), LocalDateTime("2025-07-20T20:00"))])
  {
    StubAnswers(Response(200, Some([Single])));
    WorkedFares();
    assert ToOffer(Single).fare == 99.0;
    assert MapRecords([Single], ToOffer) == [ToOffer(Single)];
  }

  const FirstOffer := FlightResponse("Carrier1", "ToughJet", 49.5, "LHR", "AMS",
                                    LocalDateTime("2025-07-20T08:00"), LocalDateTime("2025-07-25T18:00"))
  const SecondOffer := FlightResponse("Carrier2", "ToughJet", 82.5, "LHR", "AMS",
                                     LocalDateTime("2025-07-20T09:00"), LocalDateTime("2025-07-25T19:00"))

  /** Two records give two offers in body order, at 49.50 and 82.50. */
  lemma MultipleFlights()
    ensures ValidRequest(Example(2))
    ensures Search(ApiUrl, Example(2), Stub(ExpectedUrl, Response(200, Some([First, Second]))))
         == Ok([FirstOffer, SecondOffer])
  {
    StubAnswers(Response(200, Some([First, Second])));
    TwoRecords();
  }

  lemma TwoRecords()
    ensures Translate(SupplierName, Response(200, Some([First, Second])), ToOffer) == Ok([FirstOffer, SecondOffer])
  {
    WorkedFares();
    assert ToOffer(First) == FirstOffer;
    assert ToOffer(Second) == SecondOffer;
    assert MapRecords([First, Second], ToOffer) == [FirstOffer, SecondOffer];
  }

  /** An empty body is an empty result, a 500 without a body a bad
      response, and a transport exception a failed call. */
  lemma NoFlightsAndFailures()
    ensures ValidRequest(Example(2))
    ensures Search(ApiUrl, Example(2), Stub(ExpectedUrl, Response(200, Some([])))) == Ok([])
    ensures Search(ApiUrl, Example(2), Stub(ExpectedUrl, Response(500, None)))
         == Err(BadResponse("ToughJet", 500))
    ensures Search(ApiUrl, Example(2), Stub(ExpectedUrl, TransportError("Connection error")))
         == Err(TransportFailure("ToughJet", "Connection error"))
  {
    TestUrl();
  }
}

=== FILE: wrappers.dfy ===
/** Failure-compatible wrappers used throughout the model: `Option` for the
    values Java leaves nullable, `Result` for a call that either returns a
    value or throws. */
module Wrappers {

  datatype Option<+T> = None | Some(value: T)

  datatype Result<+T, +E> = Ok(value: T) | Err(error: E)
}
